=== FILE: README.md ===
# Drikkelek room hub, modelled in Dafny

`server.js` is the WebSocket hub of a party drinking game. Phones connect,
get an identity `client_<n>`, join named rooms, rename themselves, leave,
reset the game, spin a "bottle" that lands on one player, store a spin order,
and relay LED light commands to one device or to the whole room. Under the
transport sits a small sequential state machine over two tables, `clients`
and `rooms`. This project models that state machine and proves what each
handler does to the tables and who receives which message.

Every handler is a pure function from a `State` to a `Step`: the new state
and the ordered list of sends, each an `Out(recipient, message)`. `Inbox(out,
who)` projects one client's received messages out of such a list, and most
delivery lemmas are stated through it. Room-wide loops send only to members
whose client record exists and whose socket is open (`Receives`). Direct
replies (`room_joined`, `left_room`, `spinner_error`, `pong`, the LED error,
command and confirmation) are sent without a `readyState` check in the
source, so the model emits them unconditionally.

A room's `players` object is split into its key order `ids` (what
`Object.keys` and `Object.values` return: insertion order, with a rewritten
key keeping its place) and its contents `names`. The invariant `Valid` holds
in every state the handlers reach when room ids are looked up as own keys
(the program's plain-object lookup breaks it, see Findings): each room is
well formed and non-empty, and every client with a room id holds a player
record in that registered room. `Server.Reachable` adds that every client id was issued by the
counter.

The spinner's two `Math.random()` draws are parameters: exact fractions
`num/den` with `num < den`. The self-rescheduling `spinStep` callback is a
chain of ticks over the closure's variables (`SpinRun`); `SpinTrace` plays
the whole chain against the room object captured at the start.

Modules: `Base` (option, truthiness, filter), `Arith` (Euclidean division
facts), `ClientIds` (identity strings), `Registry` (tables and invariant),
`Messages`, `Broadcast` (room-wide fan-out, `broadcastRoomUpdate`), `Rooms`
(membership handlers), `Spinner`, `Led`, `Server` (connect, dispatch,
close, sweep), `Prototype` (room lookup on a plain object, as written).

Where the code and the repository's prose description disagree, the model
follows the code:
- There is no host role, no room closing when a host leaves, no refusal to
  create an existing room and no bomb or dice game.
- Joining an absent room creates it. A second join does not leave the first
  room, so a client can hold records in two rooms (`Rooms.JoinKeepsPreviousSeat`).
  "Client is in room R exactly when R holds its record" therefore does not
  hold. Only the forward direction is an invariant.
- A specific LED target need not share the sender's room (`Led.LedTargetDelivers`).
- A stored player order is not checked to be a permutation. Repeated ids are
  accepted and can push a member out of the order (`Rooms.DuplicateOrderAccepted`).
- The player named at `selectedIndex` in the start log is not always the
  winner (`Spinner.LoggedPlayerMayDiffer`).

## Model

| member | source | states |
|---|---|---|
| ClientIds.ClientNameInjective | server.js:36 | distinct counter values give distinct `client_<n>` identities |
| Server.Connect | server.js:34-57 | the new client is `client_<counter>`, starts with no name, no room and an open socket, the counter grows by one, other clients are untouched, and the client alone is told its identity |
| Server.ConnectFresh | server.js:29-47 | in a reachable state the new identity is not in use yet, and connecting keeps the invariant |
| Server.Dispatch | server.js:60-112 | the switch leaves the counter alone and never adds clients; only `start_spinner` starts a run; `ping` answers the sender with pong and changes nothing; an unknown type changes nothing and sends nothing |
| Server.DispatchReachable | server.js:65-108 | every message type keeps the reachable-state invariant |
| Server.Close | server.js:115-124 | close and error both delete exactly the client's record and keep the invariant |
| Server.Sweep | server.js:616-621 | the interval's sweep leaves exactly the clients it did not visit plus the visited ones whose socket is open, and keeps the invariant |
| Server.SocketClosed | server.js:618 | the transport closing a socket clears only that client's open flag, so room-wide sends skip it, and keeps the invariant |
| Server.SweepRemovesClosed | server.js:616-621 | a sweep visiting a client whose socket was closed removes it and keeps every visited client whose socket is open |
| Prototype.JoinAsWritten | server.js:155-185 | a join into an unregistered inherited name stores the name and room id on the client, then throws before any send; every other join is `Rooms.Join` |
| Prototype.InheritedRoomIdCrashes | server.js:164-181 | from a valid state, joining "constructor" breaks the invariant and makes the client's later disconnect throw outside any try |
| Prototype.ValidDisconnectSafe | server.js:128-135 | in a valid state no disconnect reaches an inherited member |
| Prototype.OwnKeyJoinSafe | server.js:170-185 | with own-key lookup, joining an inherited name creates an ordinary room, keeps the invariant and leaves a safe disconnect |
| Registry.PutPlayer | server.js:181-185 | writing a player record sets its name, keeps an existing key in place or appends a new one, and keeps the room well formed |
| Registry.DeletePlayer | server.js:561 | deleting a record removes exactly that key and shrinks a well-formed room by one; deleting an absent key changes nothing |
| Registry.DeleteKeepsOrder | server.js:561 | deleting a key removes exactly its position from the key order; the other keys keep their order, the order later rosters list them in |
| Registry.DisplayName | server.js:262 | the display name of a client with a non-empty id is never empty, and it is either the chosen name or the id |
| Broadcast.RoomSend | server.js:543-548 | a room-wide loop gives every open member (except a skipped one) the payload exactly once and nobody else anything |
| Broadcast.BroadcastRoomUpdate | server.js:525-551 | an absent room gets no sends; otherwise each open member gets one room_update whose roster is the room's records in key order and whose count is the number of records |
| Rooms.Remove | server.js:554-573 | removal from an absent room or of a non-member changes nothing; the last leaver deletes the room silently; otherwise only that record is deleted |
| Rooms.RemoveDelivers | server.js:559-571 | a removal that leaves players sends one room_update counting the remaining players to each remaining open member; other removals send nothing |
| Rooms.RemoveKeepsOthersSeated | server.js:554-573 | after a removal every room is still valid and every other client is still seated |
| Rooms.Join | server.js:155-199 | a missing room id or name or an unknown client changes nothing; otherwise the client takes the name and room id, the room exists, the joiner's record carries the name, other rooms are untouched |
| Rooms.JoinDelivers | server.js:187-198 | the joiner first gets room_joined, then each open member gets one room_update describing the room |
| Rooms.JoinPreservesValid | server.js:165-185 | joining keeps the state invariant |
| Rooms.JoinKeepsPreviousSeat | server.js:167-185 | a join into a second room leaves the client's record in the first |
| Rooms.PlayerInfo | server.js:202-221 | an unknown client changes nothing; otherwise the client's name is replaced and, inside a registered room, its player record too |
| Rooms.PlayerInfoDelivers | server.js:211-220 | a rename inside a room sends each open member one room_update with the new name |
| Rooms.PlayerInfoPreservesValid | server.js:202-221 | renaming keeps the state invariant |
| Rooms.Leave | server.js:224-245 | a client without a room changes nothing; otherwise its record leaves the room, it stays registered with no room id, and it receives left_room only |
| Rooms.LeavePreservesValid | server.js:224-245 | leaving keeps the state invariant |
| Rooms.Disconnect | server.js:128-152 | the client record is deleted and every other record kept, its player record leaves the room it names, an unknown client changes nothing, and the client itself receives nothing |
| Rooms.DisconnectPreservesValid | server.js:128-152 | disconnecting keeps the state invariant |
| Server.CloseIdempotent | server.js:128-131 | a second disconnect of the same client is a no-op |
| Rooms.ProposedOrder | server.js:345 | the filtered order keeps exactly the proposed ids that are current members, each as often as the proposal repeats it |
| Rooms.ProposedOrderKeepsOrder | server.js:345 | the filtered order follows the proposal's order: filtering splits over concatenation, and one entry survives exactly when it names a member |
| Rooms.SetOrder | server.js:333-367 | a rejected request changes nothing and sends nothing; an accepted one stores the filtered order, made only of member ids and as long as the room |
| Rooms.SetOrderDelivers | server.js:352-364 | an accepted order reaches each open member once, with the members' names in that order |
| Rooms.SetOrderPreservesValid | server.js:333-367 | storing an order keeps the state invariant |
| Rooms.AcceptsIffComplete | server.js:345-347 | for a proposal without repeats, acceptance holds exactly when every member is named |
| Rooms.DuplicateOrderAccepted | server.js:345-348 | a proposal that repeats one of two members is accepted and drops the other member |
| Rooms.Reset | server.js:248-274 | the state never changes; a client in a registered room makes each open member receive one game_reset naming it; otherwise nothing is sent |
| Spinner.TotalSteps | server.js:300-301 | the number of rotation steps lies between 3n and 5n-1 |
| Spinner.TotalStepsReachable | server.js:300-301 | every step count 3n+k with k < 2n comes out of some draw |
| Spinner.SelectedIndex | server.js:302 | the drawn index lies inside the order |
| Spinner.WinnerDuration | server.js:306 | the winner highlight lasts a whole, non-zero number of seconds, in milliseconds; it is positive unless the request is negative |
| Spinner.StartSpinner | server.js:277-330 | no room: nothing; fewer than two players: spinner_error to the requester only; otherwise, when the log line's lookup succeeds, each open member gets one spinner_start and a run starts at step 0 and index 0 with 3n <= finalStep < 6n and the requested-or-five-seconds duration in milliseconds; when the lookup fails, nothing |
| Spinner.StartsRun | server.js:285-308 | in a valid state a spin order that lists only members always starts a run |
| Spinner.LoggedPlayerMayDiffer | server.js:300-308 | with two players the logged player and the winner can differ |
| Spinner.Advance | server.js:444-445 | one tick adds one to the step, moves the index to the next one modulo n, leaves one step fewer, and keeps the room, order, final step and duration |
| Spinner.NextWinner | server.js:444-445 | a tick does not change the player the run stops on |
| Spinner.SpinTick | server.js:381-453 | before the final step a tick continues with the advanced closure; at the final step it faults exactly when the winner has no player record |
| Spinner.HighlightTickDelivers | server.js:423-441 | a highlight tick gives each open member one highlight of the current player |
| Spinner.FinalTickDelivers | server.js:381-419 | the final tick gives each open member one spinner_result and the winner alone, when open, the winner_highlight command |
| Spinner.SpinTrace | server.js:370-457 | the chain ends in an uncaught TypeError exactly when the player it stops on has no record |
| Spinner.HighlightsAt | server.js:424-445 | the k-th remaining highlight is for step `step + k` and names `order[(index + k) mod n]` |
| Spinner.StartedHighlights | server.js:374-445 | a started run emits exactly finalStep highlights, step k naming `order[k mod n]` |
| Spinner.SpinTraceInbox | server.js:380-446 | each client receives every remaining highlight in step order if it is an open member, then the completion |
| Spinner.VacatedRoomTrace | server.js:371-387 | a run whose room was emptied reaches nobody and crashes at the end |
| Spinner.StartedRunInbox | server.js:374-457 | from the start announcement on, an open member receives spinner_start, the highlights and one spinner_result naming `order[finalStep mod n]`, and only that winner receives the LED command |
| Spinner.SpinnerRoundTrip | server.js:277-457 | end to end on an unchanged room whose order lists only members: the run does not crash and each client receives exactly the start, the highlights, the result and, for the open winner, the LED command |
| Led.TargetPrecedence | server.js:461-462 | a truthy `targetClientId` decides the routing alone; a missing or empty one is ignored and `targetId` decides, so an empty `targetClientId` with `targetId` "all" fans out |
| Led.LedControl | server.js:460-522 | the state never changes and an unknown sender gets nothing |
| Led.LedAllDelivers | server.js:469-490 | target "all" gives each open member of the sender's room except the sender one command, the sender nothing, and nothing at all without a registered room |
| Led.LedUnknownTargetDelivers | server.js:493-501 | an unknown target gives the sender alone an error naming it |
| Led.LedTargetDelivers | server.js:504-518 | a known target gets the command and the sender the confirmation, nobody else anything |
| Server.LedAliasesAgree | server.js:74-80 | the two LED message types are handled identically |

## Left out

- The HTTP server and the `/health` endpoint: I/O plumbing.
- The `ws` transport and `JSON.parse`/`JSON.stringify`: messages are a datatype and an inbound message is the record of fields the handlers read. A message that fails to parse is caught and ignored, so it is not modelled.
- JSON values of the wrong type (a number as a room id, non-string entries in a proposed order, a non-numeric `winnerDuration`): fields are typed.
- Spinner.WinnerDuration: the requested seconds are an integer, so a fractional request (1.5 giving 1500 ms, or a non-integral millisecond count) is not modelled.
- Rooms.ProposedOrder: a proposed entry such as "constructor" finds an inherited member of `room.players` and survives the filter in the program; `names` is a plain map, so the model drops it.
- Rooms.Join: room ids are looked up as own keys, so an inherited name such as "constructor" creates a room. The program instead throws half-way and later crashes on disconnect. `Prototype` models that path, and the invariant `Valid` is an invariant of the own-key model only (see Findings).
- All `console.log` output, the human-readable `message` texts and every `timestamp`, `createdAt` and `joinedAt` field: they carry no behaviour.
- The SIGINT shutdown and the status log of the 30-second interval: process and timer plumbing. The interval's sweep is modelled as `Server.Sweep`; the order in which it visits `clients` is a parameter.
- `setTimeout` scheduling and the eased interval `floor(100 + 700 * progress^2)`: timing only. The tick chain is a sequence of ticks.
- Events between two spinner ticks: `Spinner.SpinTrace` plays the chain against fixed room contents. `Spinner.SpinTick` takes the room object's current contents, so any interleaving can be composed from single ticks.
- `Math.random()`: the two draws are parameters.
- Spinner.TotalSteps: uses the exact value `3n + floor(2rn)`, which lies in [3n, 5n-1]. Under IEEE double rounding the program's `Math.floor((3 + r * 2) * n)` can differ from it by one near an integer boundary. For the largest draw, `3 + r * 2` rounds to 5, so the program's range is [3n, 5n]. The final step is still below 6n.
- Socket state changes by the transport: `open` is a per-client flag, set on connect and cleared by `Server.SocketClosed`; when the transport closes a socket is not modelled.
- Integer formatting of the counter beyond 2^53: the counter is an unbounded natural.
- Spinner.SpinTrace: a fault ends the trace with no sends from the final tick, standing for the process stopping; what happens after a crash is not modelled.

## Findings

| source | as written | input that shows it | evidently intended | confidence | as-written member | corrected member |
|---|---|---|---|---|---|---|
| server.js:164-181 | `rooms` is a plain object, so `rooms[roomId]` also finds inherited `Object.prototype` members. handleJoinRoom stores the room id on the client (167-168), skips creating the room because the lookup is truthy (171), then throws writing into `players` of a function (181); the message handler's catch swallows it (109) | a join_room with roomId "constructor", then the client's socket closing: handleClientDisconnect, called from the `close` and `error` listeners (117, 123), finds `rooms["constructor"]` truthy (133), removePlayerFromRoom finds it truthy again (555) and reads `players` of it (558), outside any try, so the TypeError ends the process | room ids are own keys only (a `Map` or an own-property check), so "constructor" names an ordinary new room | not executed; high | Prototype.InheritedRoomIdCrashes | Prototype.OwnKeyJoinSafe |

=== FILE: arith.dfy ===
/** Facts about Euclidean division used by the spinner's step arithmetic. */
module Arith {

  /** Multiplying by a non-negative factor keeps an order. */
  lemma MulMono(a: int, b: int, c: int)
    requires a >= b && c >= 0
    ensures a * c >= b * c
  {
    assert a * c - b * c == (a - b) * c;
  }

  /** Euclidean division is unique: a = k n + r with 0 <= r < n fixes both. */
  lemma ModUnique(a: int, k: int, r: int, n: int)
    requires n > 0 && 0 <= r < n && a == k * n + r
    ensures a % n == r && a / n == k
  {
    var q, s := a / n, a % n;
    assert a == q * n + s && 0 <= s < n;
    var d := k - q;
    assert d * n == s - r by {
      assert k * n - q * n == d * n;
    }
    if d > 0 {
      MulMono(d, 1, n);
    } else if d < 0 {
      MulMono(-d, 1, n);
    }
  }

  /** (x mod n + b) mod n = (x + b) mod n. */
  lemma ModAddLeft(x: nat, b: nat, n: nat)
    requires n > 0
    ensures (x % n + b) % n == (x + b) % n
  {
    var q := x / n;
    var y := x % n + b;
    ModUnique(x, q, x % n, n);
    ModUnique(y, y / n, y % n, n);
    assert x + b == (q + y / n) * n + y % n;
    ModUnique(x + b, q + y / n, y % n, n);
  }

  /** floor(q n / den) stays below n when q < den. */
  lemma ScaledFloorBelow(q: nat, den: nat, n: nat)
    requires q < den && n > 0
    ensures (q * n) / den < n
  {
    var f := (q * n) / den;
    ModUnique(q * n, f, (q * n) % den, den);
    assert f * den <= q * n;
    MulMono(den, q + 1, n);
    assert q * n < den * n;
    if f >= n {
      MulMono(f, n, den);
    }
  }
}

=== FILE: base.dfy ===
/** Small generic helpers shared by the whole model: an optional value, the
    JavaScript truthiness of an optional string, duplicate-free sequences and
    an order-preserving filter (Array.prototype.filter / key deletion). */
module Base {

  /** An optional value; `None` stands for a missing or `null` JSON field. */
  datatype Option<+T> = None | Some(value: T) {

    /** The wrapped value, or `default` when absent (JavaScript `a || b` on an object). */
    function GetOr(default: T): T {
      match this
      case Some(v) => v
      case None => default
    }
  }

  /** JavaScript truthiness of an optional string: absent and "" are falsy. */
  predicate Truthy(s: Option<string>) {
    s.Some? && s.value != ""
  }

  /** No element occurs twice. */
  ghost predicate NoDups<T>(s: seq<T>) {
    forall i, j :: 0 <= i < j < |s| ==> s[i] != s[j]
  }

  /** The set of elements of a sequence. */
  ghost function Elems<T>(s: seq<T>): set<T> {
    set x | x in s
  }

  /** Keeps, in order, the elements that satisfy `p`. */
  function Filter<T(!new)>(p: T -> bool, s: seq<T>): (r: seq<T>)
    ensures |r| <= |s|
    ensures forall x :: x in r <==> x in s && p(x)
    ensures NoDups(s) ==> NoDups(r)
    decreases |s|
  {
    if |s| == 0 then []
    else
      var rest := Filter(p, s[1..]);
      if p(s[0]) then
        HeadNotInTail(s);
        [s[0]] + rest
      else
        rest
  }

  /** Filtering keeps every occurrence of a kept element and none of the
      others. */
  lemma {:induction false} FilterCount<T(!new)>(p: T -> bool, s: seq<T>)
    ensures forall x :: multiset(Filter(p, s))[x] == if p(x) then multiset(s)[x] else 0
    decreases |s|
  {
    if |s| > 0 {
      assert s == [s[0]] + s[1..];
      FilterCount(p, s[1..]);
    }
  }

  /** Filtering distributes over concatenation, so the kept elements stay in
      their original order. */
  lemma {:induction false} FilterConcat<T(!new)>(p: T -> bool, a: seq<T>, b: seq<T>)
    ensures Filter(p, a + b) == Filter(p, a) + Filter(p, b)
    decreases |a|
  {
    if |a| == 0 {
      assert a + b == b;
    } else {
      assert (a + b)[0] == a[0];
      assert (a + b)[1..] == a[1..] + b;
      FilterConcat(p, a[1..], b);
    }
  }

  /** In a duplicate-free sequence the head does not reoccur in the tail. */
  lemma HeadNotInTail<T>(s: seq<T>)
    requires |s| > 0
    ensures NoDups(s) ==> s[0] !in s[1..] && NoDups(s[1..])
  {
  }

  /** A duplicate-free sequence has as many distinct elements as entries. */
  lemma {:induction false} NoDupsCard<T>(s: seq<T>)
    requires NoDups(s)
    ensures |Elems(s)| == |s|
  {
    if |s| > 0 {
      HeadNotInTail(s);
      NoDupsCard(s[1..]);
      assert Elems(s) == {s[0]} + Elems(s[1..]);
    }
  }

  /** A subset with as many elements as its superset is the superset. */
  lemma SubsetCardEq<T>(a: set<T>, b: set<T>)
    requires a <= b && |a| == |b|
    ensures a == b
  {
    assert |b - a| == |b| - |a|;
  }
}

=== FILE: broadcast.dfy ===
/** Room-wide fan-out: the `Object.keys(room.players).forEach(...)` loops that
    send to every member whose client exists and whose socket is open. */
module Broadcast {
  import opened Base
  import opened Registry
  import opened Messages

  /** `clients.get(id)` exists and `ws.readyState === WebSocket.OPEN`. */
  predicate IsOpen(clients: map<ClientId, Client>, id: ClientId) {
    id in clients && clients[id].open
  }

  /** Whether a room-wide send from `r` reaches `who`; `except` is the member
      a loop skips (the LED sender), if any. */
  predicate Receives(clients: map<ClientId, Client>, r: Room, except: Option<ClientId>, who: ClientId) {
    who in r.ids && IsOpen(clients, who) && except != Some(who)
  }

  /** The recipients of a room-wide send, in key order. */
  function Audience(clients: map<ClientId, Client>, r: Room, except: Option<ClientId>): (to: seq<ClientId>)
    ensures forall who :: who in to <==> Receives(clients, r, except, who)
    ensures NoDups(r.ids) ==> NoDups(to)
  {
    Filter(who => IsOpen(clients, who) && except != Some(who), r.ids)
  }

  /** The same payload to each recipient in turn. */
  function SendAll(to: seq<ClientId>, m: Msg): (out: seq<Out>)
    ensures |out| == |to|
    ensures forall i :: 0 <= i < |out| ==> out[i].to == to[i] && out[i].msg == m
  {
    if |to| == 0 then [] else [Out(to[0], m)] + SendAll(to[1..], m)
  }

  /** Each recipient of a duplicate-free list gets the payload exactly once. */
  lemma {:induction false} InboxSendAll(to: seq<ClientId>, m: Msg, who: ClientId)
    requires NoDups(to)
    ensures Inbox(SendAll(to, m), who) == if who in to then [m] else []
  {
    if |to| > 0 {
      HeadNotInTail(to);
      var out := SendAll(to, m);
      assert out[0] == Out(to[0], m);
      assert out[1..] == SendAll(to[1..], m);
      InboxSendAll(to[1..], m, who);
    }
  }

  /** A room-wide send: every open member (but `except`) receives `m` once,
      nobody else receives anything. */
  function RoomSend(clients: map<ClientId, Client>, r: Room, except: Option<ClientId>, m: Msg): (out: seq<Out>)
    requires NoDups(r.ids)
    ensures forall who :: Inbox(out, who) == if Receives(clients, r, except, who) then [m] else []
    ensures forall o :: o in out ==> o.msg == m
  {
    var to := Audience(clients, r, except);
    var out := SendAll(to, m);
    assert forall who :: Inbox(out, who) == if who in to then [m] else [] by {
      forall who ensures Inbox(out, who) == if who in to then [m] else [] {
        InboxSendAll(to, m, who);
      }
    }
    out
  }

  /** `Object.values(room.players).map(p => ({id, name}))`, in key order. */
  function Roster(r: Room): (es: seq<Entry>)
    requires WellFormed(r)
    ensures |es| == |r.ids|
    ensures forall i :: 0 <= i < |es| ==> es[i].id == r.ids[i] && es[i].name == r.names[r.ids[i]]
  {
    seq(|r.ids|, i requires 0 <= i < |r.ids| => Entry(r.ids[i], r.names[r.ids[i]]))
  }

  /** The room_update payload describing `r`. */
  function RoomUpdateMsg(rid: RoomId, r: Room): Msg
    requires WellFormed(r)
  {
    RoomUpdate(rid, Roster(r), |r.ids|)
  }

  /** broadcastRoomUpdate(roomId): nothing for an absent room, otherwise one
      room_update whose roster and count describe the room to each open member. */
  function BroadcastRoomUpdate(st: State, rid: RoomId): (out: seq<Out>)
    requires rid in st.rooms ==> WellFormed(st.rooms[rid])
    ensures rid !in st.rooms ==> out == []
    ensures rid in st.rooms ==> forall who ::
      Inbox(out, who) == if Receives(st.clients, st.rooms[rid], None, who)
                         then [RoomUpdate(rid, Roster(st.rooms[rid]), |st.rooms[rid].names|)] else []
  {
    if rid !in st.rooms then []
    else
      var r := st.rooms[rid];
      SizeOfWellFormed(r);
      RoomSend(st.clients, r, None, RoomUpdateMsg(rid, r))
  }
}

=== FILE: client_ids.dfy ===
/** Connection identities: the gateway names the n-th connection
    `client_<n>` from a process-wide counter (server.js:29, 36). */
module ClientIds {

  const Prefix: string := "client_"

  /** The decimal digit character for `d`. */
  function Digit(d: nat): char
    requires d < 10
  {
    ('0' as int + d) as char
  }

  /** The value of a decimal digit character (0 for any other character). */
  function DigitValue(c: char): nat {
    if '0' <= c <= '9' then c as int - '0' as int else 0
  }

  /** Decimal rendering of a natural number, as `${n}` produces it. */
  function Decimal(n: nat): (s: string)
    ensures |s| > 0
    ensures forall i :: 0 <= i < |s| ==> '0' <= s[i] <= '9'
  {
    if n < 10 then [Digit(n)] else Decimal(n / 10) + [Digit(n % 10)]
  }

  /** Reads a string of decimal digits back as a number. */
  function ParseDecimal(s: string): nat {
    if |s| == 0 then 0 else ParseDecimal(s[..|s| - 1]) * 10 + DigitValue(s[|s| - 1])
  }

  /** Reading back a rendered number gives the number. */
  lemma {:induction false} ParseDecimalOfDecimal(n: nat)
    ensures ParseDecimal(Decimal(n)) == n
  {
    var s := Decimal(n);
    if n < 10 {
      assert s[..|s| - 1] == [];
    } else {
      assert s[..|s| - 1] == Decimal(n / 10);
      ParseDecimalOfDecimal(n / 10);
    }
  }

  /** The identity given to the connection numbered `n`. */
  function ClientName(n: nat): (id: string)
    ensures |id| > |Prefix| && id[..|Prefix|] == Prefix
  {
    Prefix + Decimal(n)
  }

  /** The counter value an identity was built from. */
  function ClientNumber(id: string): nat {
    if |id| >= |Prefix| then ParseDecimal(id[|Prefix|..]) else 0
  }

  /** The counter value can be read back from the identity. */
  lemma ClientNumberOfName(n: nat)
    ensures ClientNumber(ClientName(n)) == n
  {
    assert ClientName(n)[|Prefix|..] == Decimal(n);
    ParseDecimalOfDecimal(n);
  }

  /** Distinct counter values give distinct identities. */
  lemma ClientNameInjective(a: nat, b: nat)
    ensures ClientName(a) == ClientName(b) ==> a == b
  {
    ClientNumberOfName(a);
    ClientNumberOfName(b);
  }
}

=== FILE: led.dfy ===
/** handleLedControl of server.js: a client asks for a light effect on one
    other device or on every other device of its room. The handler never
    changes the state; it only sends. */
module Led {
  import opened Base
  import opened Registry
  import opened Messages
  import opened Broadcast

  /** `targetClientId || targetId`: the first field when truthy, else the
      second as it came (possibly missing or empty). */
  function Target(targetClientId: Option<string>, targetId: Option<string>): Option<string> {
    if Truthy(targetClientId) then targetClientId else targetId
  }

  /** The led_command a sender's request turns into. */
  function Command(st: State, cid: ClientId, action: Option<string>): Msg
    requires cid in st.clients
  {
    LedCommand(action, cid, DisplayName(st.clients[cid], cid), None)
  }

  /** handleLedControl. An unknown sender is ignored. The target "all" fans
      the command out to every open member of the sender's room except the
      sender (nothing when the sender has no registered room). Any other
      target that names no client gets an error back to the sender; a known
      target gets the command directly, and the sender a confirmation. */
  function LedControl(st: State, cid: ClientId, targetClientId: Option<string>, targetId: Option<string>,
                      action: Option<string>): (r: Step)
    requires RoomsValid(st)
    ensures r.st == st
    ensures cid !in st.clients ==> r.out == []
  {
    if cid !in st.clients then Step(st, [])
    else
      var sender := st.clients[cid];
      var target := Target(targetClientId, targetId);
      if target == Some("all") then
        if Truthy(sender.roomId) && sender.roomId.value in st.rooms then
          Step(st, RoomSend(st.clients, st.rooms[sender.roomId.value], Some(cid), Command(st, cid, action)))
        else
          Step(st, [])
      else if target.None? || target.value !in st.clients then
        Step(st, [Out(cid, NotFoundError(target))])
      else
        Step(st, [Out(target.value, Command(st, cid, action)), Out(cid, LedControlSent(target.value, action))])
  }

  /** Which field names the target: a truthy `targetClientId` decides alone
      and `targetId` is then ignored; a missing or empty `targetClientId` is
      ignored and `targetId` decides (so `targetClientId: ""` with
      `targetId: "all"` is a room-wide fan-out). */
  lemma TargetPrecedence(st: State, cid: ClientId, targetClientId: Option<string>, targetId: Option<string>,
                         action: Option<string>)
    requires RoomsValid(st)
    ensures Truthy(targetClientId) ==>
      LedControl(st, cid, targetClientId, targetId, action) == LedControl(st, cid, targetClientId, None, action)
    ensures !Truthy(targetClientId) ==>
      LedControl(st, cid, targetClientId, targetId, action) == LedControl(st, cid, None, targetId, action)
  {
  }

  /** The fan-out to "all": each open member of the sender's room other than
      the sender receives the command exactly once; the sender and everyone
      outside the room receive nothing. */
  lemma LedAllDelivers(st: State, cid: ClientId, targetClientId: Option<string>, targetId: Option<string>,
                       action: Option<string>, who: ClientId)
    requires RoomsValid(st) && cid in st.clients
    requires Target(targetClientId, targetId) == Some("all")
    ensures var r := LedControl(st, cid, targetClientId, targetId, action);
      var room := st.clients[cid].roomId;
      if Truthy(room) && room.value in st.rooms then
        Inbox(r.out, who) ==
          if who in st.rooms[room.value].ids && IsOpen(st.clients, who) && who != cid
          then [Command(st, cid, action)] else []
      else r.out == []
    ensures Inbox(LedControl(st, cid, targetClientId, targetId, action).out, cid) == []
  {
    var room := st.clients[cid].roomId;
    if Truthy(room) && room.value in st.rooms {
      var r := LedControl(st, cid, targetClientId, targetId, action);
      assert r.out == RoomSend(st.clients, st.rooms[room.value], Some(cid), Command(st, cid, action));
    }
  }

  /** A specific target that names no connected client: the sender alone
      gets an error naming the target. */
  lemma LedUnknownTargetDelivers(st: State, cid: ClientId, targetClientId: Option<string>, targetId: Option<string>,
                                 action: Option<string>, who: ClientId)
    requires RoomsValid(st) && cid in st.clients
    requires var t := Target(targetClientId, targetId); t != Some("all") && (t.None? || t.value !in st.clients)
    ensures Inbox(LedControl(st, cid, targetClientId, targetId, action).out, who) ==
      if who == cid then [NotFoundError(Target(targetClientId, targetId))] else []
  {
  }

  /** A specific target that is connected: the target gets the command and
      the sender the confirmation, whether or not the target shares the
      sender's room; nobody else gets anything. */
  lemma LedTargetDelivers(st: State, cid: ClientId, targetClientId: Option<string>, targetId: Option<string>,
                          action: Option<string>, who: ClientId)
    requires RoomsValid(st) && cid in st.clients
    requires var t := Target(targetClientId, targetId); t.Some? && t.value != "all" && t.value in st.clients
    ensures var t := Target(targetClientId, targetId).value;
      Inbox(LedControl(st, cid, targetClientId, targetId, action).out, who) ==
        (if who == t then [Command(st, cid, action)] else [])
        + (if who == cid then [LedControlSent(t, action)] else [])
  {
    var t := Target(targetClientId, targetId).value;
    var out := [Out(t, Command(st, cid, action)), Out(cid, LedControlSent(t, action))];
    assert LedControl(st, cid, targetClientId, targetId, action).out == out;
    assert out == [out[0]] + [out[1]];
    InboxConcat([out[0]], [out[1]], who);
  }
}

=== FILE: messages.dfy ===
/** Outbound messages (the `type` field of each JSON object the server sends)
    and the handlers' result: a new state plus the ordered list of sends. */
module Messages {
  import opened Base
  import opened Registry

  /** One `{id, name}` entry of a room_update roster. */
  datatype Entry = Entry(id: ClientId, name: Option<string>)

  /** Outbound message payloads; human-readable `message` texts and
      timestamps are not modelled. */
  datatype Msg =
    | Connected(clientId: ClientId)
    | RoomJoined(joinedRoom: RoomId, playerName: string)
    | RoomUpdate(updatedRoom: RoomId, players: seq<Entry>, playerCount: nat)
    | LeftRoom(leftRoom: RoomId)
    | GameReset(resetRoom: RoomId, resetBy: string)
    | SpinnerError
    | SpinnerStart(spinRoom: RoomId, order: seq<ClientId>, totalSteps: nat, startedBy: string, startDuration: int)
    | SpinnerHighlight(highlightRoom: RoomId, highlighted: ClientId, step: nat, highlightTotal: nat)
    | SpinnerResult(resultRoom: RoomId, winnerId: ClientId, winnerName: Option<string>, winnerDuration: int)
    | PlayerOrderUpdate(orderRoom: RoomId, playerOrder: seq<ClientId>, orderNames: seq<Option<string>>)
    | LedCommand(action: Option<string>, from: string, fromName: string, duration: Option<int>)
    | LedControlSent(target: ClientId, sentAction: Option<string>)
    | NotFoundError(missing: Option<string>)
    | Pong

  /** One `ws.send`: the recipient and the payload. */
  datatype Out = Out(to: ClientId, msg: Msg)

  /** A handler's effect: the state afterwards and the sends, in order. */
  datatype Step = Step(st: State, out: seq<Out>)

  /** What one client receives from a list of sends, in order. */
  function Inbox(out: seq<Out>, who: ClientId): (r: seq<Msg>)
    ensures |r| <= |out|
    ensures forall m :: m in r <==> Out(who, m) in out
  {
    if |out| == 0 then []
    else if out[0].to == who then [out[0].msg] + Inbox(out[1..], who)
    else Inbox(out[1..], who)
  }

  /** What one client receives from two send lists in a row. */
  lemma {:induction false} InboxConcat(a: seq<Out>, b: seq<Out>, who: ClientId)
    ensures Inbox(a + b, who) == Inbox(a, who) + Inbox(b, who)
  {
    if |a| == 0 {
      assert a + b == b;
    } else {
      assert (a + b)[0] == a[0];
      assert (a + b)[1..] == a[1..] + b;
      InboxConcat(a[1..], b, who);
    }
  }
}

=== FILE: prototype.dfy ===
/** `rooms` in server.js is a plain object `{}`, so `rooms[roomId]` also
    finds the members every object inherits from `Object.prototype`. For such
    a room id handleJoinRoom throws half-way, and the later disconnect of the
    same client throws outside any try. This module models that path as
    written; the rest of the model looks room ids up as own keys only, which
    is the behaviour `Rooms.Join` has. */
module Prototype {
  import opened Base
  import opened Registry
  import opened Messages
  import Rooms

  /** The property names `Object.prototype` gives every plain object. Each
      finds a truthy function or object that has no `players` property. */
  const InheritedNames: set<string> :=
    {"constructor", "__proto__", "toString", "toLocaleString", "valueOf", "hasOwnProperty",
     "isPrototypeOf", "propertyIsEnumerable", "__defineGetter__", "__defineSetter__",
     "__lookupGetter__", "__lookupSetter__"}

  /** What `rooms[rid]` evaluates to: a registered room, an inherited member
      (truthy, not a room), or `undefined`. */
  datatype Lookup = OwnRoom(room: Room) | InheritedMember | Undefined

  function LookupRoom(st: State, rid: RoomId): Lookup {
    if rid in st.rooms then OwnRoom(st.rooms[rid])
    else if rid in InheritedNames then InheritedMember
    else Undefined
  }

  /** How a handler ends: normally, with an exception caught by the message
      handler's try/catch (the state stays as the throw left it and nothing
      more is sent), or with an exception outside any try, which ends the
      process. */
  datatype Outcome = Returned(step: Step) | Caught(st: State) | Crashed

  /** handleJoinRoom as written. When the room id names an inherited member,
      the client record already holds the name and room id, the creation is
      skipped because the lookup is truthy, and writing into `players` of a
      non-room throws before anything is sent. Every other join behaves as
      `Rooms.Join`. */
  function JoinAsWritten(st: State, cid: ClientId, roomId: Option<string>, playerName: Option<string>): (o: Outcome)
    requires RoomsValid(st)
    ensures Truthy(roomId) && Truthy(playerName) && cid in st.clients && LookupRoom(st, roomId.value).InheritedMember? ==>
      o == Caught(st.(clients := st.clients[cid := st.clients[cid].(playerName := playerName, roomId := roomId)]))
    ensures !(Truthy(roomId) && roomId.value in InheritedNames && roomId.value !in st.rooms) ==>
      o == Returned(Rooms.Join(st, cid, roomId, playerName))
  {
    if Truthy(roomId) && Truthy(playerName) && cid in st.clients && LookupRoom(st, roomId.value).InheritedMember? then
      Caught(st.(clients := st.clients[cid := st.clients[cid].(playerName := playerName, roomId := roomId)]))
    else
      Returned(Rooms.Join(st, cid, roomId, playerName))
  }

  /** handleClientDisconnect, run by the `close` and `error` listeners and
      the interval's sweep, outside any try: a truthy room id whose lookup is
      truthy reaches `room.players[clientId]`, which throws when the lookup
      found an inherited member. */
  predicate DisconnectCrashes(st: State, cid: ClientId) {
    && cid in st.clients
    && Truthy(st.clients[cid].roomId)
    && LookupRoom(st, st.clients[cid].roomId.value).InheritedMember?
  }

  /** As written: from any valid state, a known client joining the room
      "constructor" (or any other inherited name not registered as a room)
      leaves a state that breaks the invariant, and its disconnect then
      ends the process. */
  lemma InheritedRoomIdCrashes(st: State, cid: ClientId, rid: RoomId, playerName: Option<string>)
    requires Valid(st) && cid in st.clients && Truthy(playerName)
    requires rid in InheritedNames && rid !in st.rooms
    ensures var o := JoinAsWritten(st, cid, Some(rid), playerName);
      && o.Caught?
      && !Valid(o.st)
      && DisconnectCrashes(o.st, cid)
  {
    var o := JoinAsWritten(st, cid, Some(rid), playerName);
    assert o.st.clients[cid].roomId == Some(rid);
    assert !Seated(o.st, cid);
  }

  /** No disconnect crashes in a valid state: every room id a client holds is
      registered, so the lookup never falls through to an inherited member. */
  lemma ValidDisconnectSafe(st: State, cid: ClientId)
    requires Valid(st)
    ensures !DisconnectCrashes(st, cid)
  {
    if cid in st.clients && Truthy(st.clients[cid].roomId) {
      assert Seated(st, cid);
    }
  }

  /** Corrected: with room ids looked up as own keys, joining "constructor"
      creates an ordinary room, the invariant holds, and the disconnect that
      crashed the program goes through. */
  lemma OwnKeyJoinSafe(st: State, cid: ClientId, rid: RoomId, playerName: Option<string>)
    requires Valid(st) && cid in st.clients && Truthy(playerName)
    requires rid in InheritedNames
    ensures var r := Rooms.Join(st, cid, Some(rid), playerName);
      && rid in r.st.rooms
      && cid in r.st.rooms[rid].names
      && Valid(r.st)
      && !DisconnectCrashes(r.st, cid)
  {
    Rooms.JoinPreservesValid(st, cid, Some(rid), playerName);
    ValidDisconnectSafe(Rooms.Join(st, cid, Some(rid), playerName).st, cid);
  }
}

=== FILE: registry.dfy ===
/** The two process-wide tables of server.js: `clients` (clientId -> client
    info) and `rooms` (roomId -> room info), and the room's `players` object. */
module Registry {
  import opened Base

  type ClientId = string
  type RoomId = string

  /** One connection's record. `open` stands for `ws.readyState === OPEN`;
      the socket itself and `joinedAt` are not modelled. */
  datatype Client = Client(playerName: Option<string>, roomId: Option<RoomId>, open: bool)

  /** A room. The JavaScript `players` object is split into its key order
      (`ids`, what `Object.keys` returns: insertion order, a re-assigned key
      keeps its place) and its contents (`names`, the player records' `name`).
      `playerOrder` is the optional order stored by set_player_order. */
  datatype Room = Room(ids: seq<ClientId>, names: map<ClientId, Option<string>>,
                       playerOrder: Option<seq<ClientId>>)

  /** The whole server state; `nextId` is `clientIdCounter`. */
  datatype State = State(clients: map<ClientId, Client>, rooms: map<RoomId, Room>, nextId: nat)

  /** The room created by a join into an absent room id, before the joiner is added. */
  const EmptyRoom: Room := Room([], map[], None)

  /** Key order and contents describe the same players, each key once. */
  ghost predicate WellFormed(r: Room) {
    && NoDups(r.ids)
    && (forall id :: id in r.ids <==> id in r.names)
  }

  /** A registered room: well formed and, since the last leaver deletes it,
      never empty; a stored player order is never empty either. */
  ghost predicate ValidRoom(r: Room) {
    WellFormed(r) && |r.ids| > 0 && (r.playerOrder.Some? ==> |r.playerOrder.value| > 0)
  }

  /** The client's `roomId` names a registered room that holds its player record. */
  ghost predicate Seated(st: State, cid: ClientId)
    requires cid in st.clients && st.clients[cid].roomId.Some?
  {
    var rid := st.clients[cid].roomId.value;
    rid != "" && rid in st.rooms && cid in st.rooms[rid].names
  }

  ghost predicate RoomsValid(st: State) {
    forall rid :: rid in st.rooms ==> ValidRoom(st.rooms[rid])
  }

  /** Every client other than `except` that has a room id is seated in it. */
  ghost predicate SeatedAllBut(st: State, except: Option<ClientId>) {
    forall cid :: cid in st.clients && st.clients[cid].roomId.Some? && except != Some(cid) ==> Seated(st, cid)
  }

  /** The invariant every reachable state satisfies. */
  ghost predicate Valid(st: State) {
    RoomsValid(st) && SeatedAllBut(st, None)
  }

  /** `players[id] = {id, name}`: overwrites the record of a present key in
      place, appends a new key at the end of the key order. */
  function PutPlayer(r: Room, id: ClientId, name: Option<string>): (r': Room)
    ensures r'.names == r.names[id := name]
    ensures r'.playerOrder == r.playerOrder
    ensures |r.ids| <= |r'.ids| && r'.ids[..|r.ids|] == r.ids
    ensures id in r.names ==> r'.ids == r.ids
    ensures WellFormed(r) ==> WellFormed(r') && |r'.ids| == |r.ids| + (if id in r.names then 0 else 1)
  {
    r.(ids := if id in r.names then r.ids else r.ids + [id], names := r.names[id := name])
  }

  /** `delete players[id]`: drops the key from the key order and the contents. */
  function DeletePlayer(r: Room, id: ClientId): (r': Room)
    ensures r'.names == r.names - {id}
    ensures r'.playerOrder == r.playerOrder
    ensures forall x :: x in r'.ids <==> x in r.ids && x != id
    ensures WellFormed(r) ==> WellFormed(r')
    ensures WellFormed(r) && id in r.names ==> |r'.ids| == |r.ids| - 1
    ensures id !in r.ids ==> r'.ids == r.ids
  {
    FilterOutOne(r.ids, id);
    FilterKeepsAll(r.ids, id);
    r.(ids := Filter(x => x != id, r.ids), names := r.names - {id})
  }

  /** Deleting a key keeps the other keys in their order: the key order
      loses exactly the entry at the deleted key's position. */
  lemma DeleteKeepsOrder(r: Room, id: ClientId, i: nat)
    requires WellFormed(r) && i < |r.ids| && r.ids[i] == id
    ensures DeletePlayer(r, id).ids == r.ids[..i] + r.ids[i + 1..]
  {
    var pre, post := r.ids[..i], r.ids[i + 1..];
    assert r.ids == pre + ([id] + post);
    assert id !in pre && id !in post;
    FilterConcat(x => x != id, pre, [id] + post);
    FilterConcat(x => x != id, [id], post);
    FilterKeepsAll(pre, id);
    FilterKeepsAll(post, id);
  }

  /** Removing a value that occurs once from a duplicate-free sequence shortens it by one. */
  lemma {:induction false} FilterOutOne(s: seq<ClientId>, id: ClientId)
    ensures NoDups(s) && id in s ==> |Filter(x => x != id, s)| == |s| - 1
  {
    if !(NoDups(s) && id in s) {
    } else if s[0] == id {
      HeadNotInTail(s);
      FilterKeepsAll(s[1..], id);
    } else {
      HeadNotInTail(s);
      FilterOutOne(s[1..], id);
    }
  }

  /** Removing a value that does not occur changes nothing. */
  lemma {:induction false} FilterKeepsAll(s: seq<ClientId>, id: ClientId)
    ensures id !in s ==> Filter(x => x != id, s) == s
  {
    if id !in s && |s| > 0 {
      FilterKeepsAll(s[1..], id);
    }
  }

  /** A well-formed room has one key per player record. */
  lemma SizeOfWellFormed(r: Room)
    requires WellFormed(r)
    ensures |r.ids| == |r.names|
  {
    NoDupsCard(r.ids);
    assert Elems(r.ids) == r.names.Keys;
  }

  /** The display name `client.playerName || clientId`: never empty for a
      non-empty id, and either the chosen name or the id. */
  function DisplayName(c: Client, cid: ClientId): (n: string)
    ensures cid != "" ==> n != ""
    ensures Some(n) == c.playerName || n == cid
  {
    if Truthy(c.playerName) then c.playerName.value else cid
  }
}

=== FILE: rooms.dfy ===
/** Room membership handlers of server.js: join, rename, leave, disconnect,
    player removal, player order and game reset. Each is a pure transition
    from a state to a `Step` (new state, sends in order). */
module Rooms {
  import opened Base
  import opened Registry
  import opened Messages
  import opened Broadcast

  /** removePlayerFromRoom(clientId, roomId): deletes the player's record;
      the last leaver deletes the room, otherwise the room keeps its other
      records. The client record is left to the caller. */
  function Remove(st: State, cid: ClientId, rid: RoomId): (r: Step)
    requires RoomsValid(st)
    ensures r.st.clients == st.clients && r.st.nextId == st.nextId
    ensures !(rid in st.rooms && cid in st.rooms[rid].names) ==> r == Step(st, [])
    ensures rid in st.rooms && cid in st.rooms[rid].names && |st.rooms[rid].names| == 1 ==>
      r.st.rooms == st.rooms - {rid} && r.out == []
    ensures rid in st.rooms && cid in st.rooms[rid].names && |st.rooms[rid].names| != 1 ==>
      r.st.rooms == st.rooms[rid := DeletePlayer(st.rooms[rid], cid)]
  {
    if rid !in st.rooms then Step(st, [])
    else
      var room := st.rooms[rid];
      if cid !in room.names then Step(st, [])
      else
        var room' := DeletePlayer(room, cid);
        SizeOfWellFormed(room);
        if |room'.ids| == 0 then
          Step(st.(rooms := st.rooms - {rid}), [])
        else
          var st' := st.(rooms := st.rooms[rid := room']);
          Step(st', BroadcastRoomUpdate(st', rid))
  }

  /** A removal from a room that keeps other players sends exactly one
      room_update to each remaining open member, counting the remaining
      players; an ignored or room-deleting removal sends nothing. */
  lemma RemoveDelivers(st: State, cid: ClientId, rid: RoomId, who: ClientId)
    requires RoomsValid(st)
    ensures var r := Remove(st, cid, rid);
      if rid in st.rooms && cid in st.rooms[rid].names && |st.rooms[rid].names| != 1 then
        && rid in r.st.rooms
        && |r.st.rooms[rid].names| == |st.rooms[rid].names| - 1
        && Inbox(r.out, who) ==
             if Receives(st.clients, r.st.rooms[rid], None, who)
             then [RoomUpdate(rid, Roster(r.st.rooms[rid]), |st.rooms[rid].names| - 1)] else []
      else r.out == []
  {
    if rid in st.rooms && cid in st.rooms[rid].names && |st.rooms[rid].names| != 1 {
      var room' := DeletePlayer(st.rooms[rid], cid);
      SizeOfWellFormed(st.rooms[rid]);
      assert |room'.ids| != 0;
      var st' := st.(rooms := st.rooms[rid := room']);
      assert Remove(st, cid, rid) == Step(st', BroadcastRoomUpdate(st', rid));
    }
  }

  /** Removal keeps every room valid and every other client seated. */
  lemma RemoveKeepsOthersSeated(st: State, cid: ClientId, rid: RoomId)
    requires Valid(st)
    ensures RoomsValid(Remove(st, cid, rid).st)
    ensures SeatedAllBut(Remove(st, cid, rid).st, Some(cid))
  {
    var r := Remove(st, cid, rid);
    if rid in st.rooms && cid in st.rooms[rid].names {
      var room := st.rooms[rid];
      SizeOfWellFormed(room);
      forall c | c in r.st.clients && r.st.clients[c].roomId.Some? && Some(cid) != Some(c)
        ensures Seated(r.st, c)
      {
        assert Seated(st, c);
        var q := st.clients[c].roomId.value;
        if q == rid {
          assert c in room.names && c != cid;
        }
      }
    }
  }

  /** handleJoinRoom: a missing room id or name, or an unknown client, changes
      nothing; otherwise the client record takes the name and room id, the
      room is created if absent and the player record is written. A previous
      room is not left. */
  function Join(st: State, cid: ClientId, roomId: Option<string>, playerName: Option<string>): (r: Step)
    requires RoomsValid(st)
    ensures r.st.nextId == st.nextId
    ensures !(Truthy(roomId) && Truthy(playerName) && cid in st.clients) ==> r == Step(st, [])
    ensures Truthy(roomId) && Truthy(playerName) && cid in st.clients ==>
      var rid := roomId.value;
      && r.st.clients == st.clients[cid := st.clients[cid].(playerName := playerName, roomId := roomId)]
      && r.st.rooms.Keys == st.rooms.Keys + {rid}
      && (forall q :: q != rid && q in st.rooms ==> r.st.rooms[q] == st.rooms[q])
      && r.st.rooms[rid].names == (if rid in st.rooms then st.rooms[rid].names else map[])[cid := playerName]
      && (rid in st.rooms ==> r.st.rooms[rid].playerOrder == st.rooms[rid].playerOrder)
      && ValidRoom(r.st.rooms[rid])
  {
    if !Truthy(roomId) || !Truthy(playerName) then Step(st, [])
    else if cid !in st.clients then Step(st, [])
    else
      var rid := roomId.value;
      var client := st.clients[cid].(playerName := playerName, roomId := roomId);
      var room := if rid in st.rooms then st.rooms[rid] else EmptyRoom;
      var st' := st.(clients := st.clients[cid := client], rooms := st.rooms[rid := PutPlayer(room, cid, playerName)]);
      Step(st', [Out(cid, RoomJoined(rid, playerName.value))] + BroadcastRoomUpdate(st', rid))
  }

  /** After an accepted join the joiner first gets room_joined, and every open
      member of the room (the joiner included) gets one room_update listing
      the room's players in key order. */
  lemma JoinDelivers(st: State, cid: ClientId, roomId: Option<string>, playerName: Option<string>, who: ClientId)
    requires RoomsValid(st)
    requires Truthy(roomId) && Truthy(playerName) && cid in st.clients
    ensures var r := Join(st, cid, roomId, playerName);
      var room := r.st.rooms[roomId.value];
      Inbox(r.out, who) ==
        (if who == cid then [RoomJoined(roomId.value, playerName.value)] else [])
        + (if Receives(r.st.clients, room, None, who)
           then [RoomUpdate(roomId.value, Roster(room), |room.names|)] else [])
  {
    var r := Join(st, cid, roomId, playerName);
    var first := [Out(cid, RoomJoined(roomId.value, playerName.value))];
    var update := BroadcastRoomUpdate(r.st, roomId.value);
    JoinSends(st, cid, roomId, playerName);
    assert Inbox(first, who) == if who == cid then [RoomJoined(roomId.value, playerName.value)] else [];
    InboxConcat(first, update, who);
  }

  /** Helper: an accepted join sends room_joined, then the room update. */
  lemma JoinSends(st: State, cid: ClientId, roomId: Option<string>, playerName: Option<string>)
    requires RoomsValid(st)
    requires Truthy(roomId) && Truthy(playerName) && cid in st.clients
    ensures var r := Join(st, cid, roomId, playerName);
      r.out == [Out(cid, RoomJoined(roomId.value, playerName.value))] + BroadcastRoomUpdate(r.st, roomId.value)
  {
  }

  /** Joining keeps the state invariant: the joiner is seated in the room it
      named, and nobody else loses a seat. */
  lemma JoinPreservesValid(st: State, cid: ClientId, roomId: Option<string>, playerName: Option<string>)
    requires Valid(st)
    ensures Valid(Join(st, cid, roomId, playerName).st)
  {
    var r := Join(st, cid, roomId, playerName);
    JoinKeepsRoomsValid(st, cid, roomId, playerName);
    if Truthy(roomId) && Truthy(playerName) && cid in st.clients {
      forall c | c in r.st.clients && r.st.clients[c].roomId.Some?
        ensures Seated(r.st, c)
      {
        if c != cid {
          assert r.st.clients[c] == st.clients[c];
          assert Seated(st, c);
          var q := st.clients[c].roomId.value;
          if q == roomId.value {
            assert c in st.rooms[q].names;
            assert r.st.rooms[q].names == st.rooms[q].names[cid := playerName];
          } else {
            assert r.st.rooms[q] == st.rooms[q];
          }
        }
      }
    }
  }

  /** Helper: joining keeps every room valid. */
  lemma JoinKeepsRoomsValid(st: State, cid: ClientId, roomId: Option<string>, playerName: Option<string>)
    requires RoomsValid(st)
    ensures RoomsValid(Join(st, cid, roomId, playerName).st)
  {
    var r := Join(st, cid, roomId, playerName);
    if Truthy(roomId) && Truthy(playerName) && cid in st.clients {
      forall q | q in r.st.rooms ensures ValidRoom(r.st.rooms[q]) {
        if q != roomId.value {
          assert r.st.rooms[q] == st.rooms[q];
        }
      }
    }
  }

  /** A second join moves the client's room id but leaves its record in the
      room it was in: the client stays a member of both rooms. */
  lemma JoinKeepsPreviousSeat(st: State, cid: ClientId, roomId: Option<string>, playerName: Option<string>)
    requires Valid(st)
    requires Truthy(roomId) && Truthy(playerName) && cid in st.clients
    requires st.clients[cid].roomId.Some? && st.clients[cid].roomId != roomId
    ensures var r := Join(st, cid, roomId, playerName);
      var prev := st.clients[cid].roomId.value;
      && r.st.clients[cid].roomId == roomId
      && prev in r.st.rooms && cid in r.st.rooms[prev].names
      && cid in r.st.rooms[roomId.value].names
  {
    assert Seated(st, cid);
  }

  /** handlePlayerInfo: an unknown client changes nothing; otherwise the
      client's name is replaced (even by a missing one) and, when the client
      is in a registered room, its player record too, keeping its place in
      the key order. */
  function PlayerInfo(st: State, cid: ClientId, playerName: Option<string>): (r: Step)
    requires Valid(st)
    ensures r.st.nextId == st.nextId
    ensures cid !in st.clients ==> r == Step(st, [])
    ensures cid in st.clients ==>
      r.st.clients == st.clients[cid := st.clients[cid].(playerName := playerName)]
    ensures cid in st.clients && !Truthy(st.clients[cid].roomId) ==> r.st.rooms == st.rooms && r.out == []
    ensures cid in st.clients && Truthy(st.clients[cid].roomId) ==>
      var rid := st.clients[cid].roomId.value;
      && rid in st.rooms
      && r.st.rooms == st.rooms[rid := st.rooms[rid].(names := st.rooms[rid].names[cid := playerName])]
  {
    if cid !in st.clients then Step(st, [])
    else
      var c := st.clients[cid];
      var clients' := st.clients[cid := c.(playerName := playerName)];
      if Truthy(c.roomId) && c.roomId.value in st.rooms then
        var rid := c.roomId.value;
        assert Seated(st, cid);
        var st' := st.(clients := clients', rooms := st.rooms[rid := PutPlayer(st.rooms[rid], cid, playerName)]);
        Step(st', BroadcastRoomUpdate(st', rid))
      else
        Step(st.(clients := clients'), [])
  }

  /** A rename inside a room sends one room_update, with the new name in the
      roster, to each open member. */
  lemma PlayerInfoDelivers(st: State, cid: ClientId, playerName: Option<string>, who: ClientId)
    requires Valid(st)
    requires cid in st.clients && Truthy(st.clients[cid].roomId)
    ensures var r := PlayerInfo(st, cid, playerName);
      var rid := st.clients[cid].roomId.value;
      && rid in r.st.rooms
      && Inbox(r.out, who) ==
           if Receives(st.clients, st.rooms[rid], None, who)
           then [RoomUpdate(rid, Roster(r.st.rooms[rid]), |st.rooms[rid].names|)] else []
  {
    assert Seated(st, cid);
    var rid := st.clients[cid].roomId.value;
    var r := PlayerInfo(st, cid, playerName);
    var room := st.rooms[rid];
    var room' := r.st.rooms[rid];
    assert room'.names == room.names[cid := playerName];
    assert room'.ids == room.ids by {
      assert room' == PutPlayer(room, cid, playerName);
    }
    assert IsOpen(r.st.clients, who) == IsOpen(st.clients, who) by {
      assert r.st.clients == st.clients[cid := st.clients[cid].(playerName := playerName)];
    }
    assert Receives(r.st.clients, room', None, who) == Receives(st.clients, room, None, who);
    assert |room'.names| == |room.names|;
  }

  /** Renaming keeps the state invariant. */
  lemma PlayerInfoPreservesValid(st: State, cid: ClientId, playerName: Option<string>)
    requires Valid(st)
    ensures Valid(PlayerInfo(st, cid, playerName).st)
  {
    var r := PlayerInfo(st, cid, playerName);
    forall c | c in r.st.clients && r.st.clients[c].roomId.Some?
      ensures Seated(r.st, c)
    {
      assert Seated(st, c);
    }
  }

  /** handleLeaveRoom: a client without a room changes nothing; otherwise the
      player is removed from the room, the client stays registered with its
      room id cleared, and it receives left_room (and nothing else). */
  function Leave(st: State, cid: ClientId): (r: Step)
    requires Valid(st)
    ensures r.st.nextId == st.nextId
    ensures !(cid in st.clients && Truthy(st.clients[cid].roomId)) ==> r == Step(st, [])
    ensures cid in st.clients && Truthy(st.clients[cid].roomId) ==>
      var rid := st.clients[cid].roomId.value;
      var removed := Remove(st, cid, rid);
      && r.st.clients == st.clients[cid := st.clients[cid].(roomId := None)]
      && (rid in r.st.rooms ==> cid !in r.st.rooms[rid].names)
      && r.st.rooms == removed.st.rooms
      && r.out == removed.out + [Out(cid, LeftRoom(rid))]
      && Inbox(r.out, cid) == [LeftRoom(rid)]
  {
    if cid !in st.clients || !Truthy(st.clients[cid].roomId) then Step(st, [])
    else
      var c := st.clients[cid];
      var rid := c.roomId.value;
      var removed := Remove(st, cid, rid);
      var last := [Out(cid, LeftRoom(rid))];
      RemoveDelivers(st, cid, rid, cid);
      InboxConcat(removed.out, last, cid);
      Step(removed.st.(clients := removed.st.clients[cid := c.(roomId := None)]), removed.out + last)
  }

  /** Leaving keeps the state invariant. */
  lemma LeavePreservesValid(st: State, cid: ClientId)
    requires Valid(st)
    ensures Valid(Leave(st, cid).st)
  {
    if cid in st.clients && Truthy(st.clients[cid].roomId) {
      var rid := st.clients[cid].roomId.value;
      RemoveKeepsOthersSeated(st, cid, rid);
      var removed := Remove(st, cid, rid);
      var r := Leave(st, cid);
      forall c | c in r.st.clients && r.st.clients[c].roomId.Some?
        ensures Seated(r.st, c)
      {
        assert Seated(removed.st, c);
      }
    }
  }

  /** handleClientDisconnect: idempotent cleanup. The client's player record
      is removed from the room its room id names (if that room is registered)
      and the client record is deleted; other client records are untouched,
      and an unknown client changes nothing, so a second call is a no-op. */
  function Disconnect(st: State, cid: ClientId): (r: Step)
    requires Valid(st)
    ensures r.st.nextId == st.nextId
    ensures r.st.clients == st.clients - {cid}
    ensures cid !in st.clients ==> r == Step(st, [])
    ensures Inbox(r.out, cid) == []
    ensures cid in st.clients && st.clients[cid].roomId.Some? && st.clients[cid].roomId.value in r.st.rooms ==>
      cid !in r.st.rooms[st.clients[cid].roomId.value].names
    ensures cid in st.clients && Truthy(st.clients[cid].roomId) ==>
      var removed := Remove(st, cid, st.clients[cid].roomId.value);
      r.st.rooms == removed.st.rooms && r.out == removed.out
    ensures cid in st.clients && !Truthy(st.clients[cid].roomId) ==> r.st.rooms == st.rooms && r.out == []
  {
    if cid !in st.clients then Step(st, [])
    else
      var c := st.clients[cid];
      if Truthy(c.roomId) && c.roomId.value in st.rooms then
        var removed := Remove(st, cid, c.roomId.value);
        RemoveDelivers(st, cid, c.roomId.value, cid);
        Step(removed.st.(clients := removed.st.clients - {cid}), removed.out)
      else
        assert c.roomId.Some? ==> Seated(st, cid);
        Step(st.(clients := st.clients - {cid}), [])
  }

  /** Disconnecting keeps the state invariant. */
  lemma DisconnectPreservesValid(st: State, cid: ClientId)
    requires Valid(st)
    ensures Valid(Disconnect(st, cid).st)
  {
    if cid in st.clients && Truthy(st.clients[cid].roomId) {
      var rid := st.clients[cid].roomId.value;
      RemoveKeepsOthersSeated(st, cid, rid);
      var removed := Remove(st, cid, rid);
      var r := Disconnect(st, cid);
      forall c | c in r.st.clients && r.st.clients[c].roomId.Some?
        ensures Seated(r.st, c)
      {
        assert Seated(removed.st, c);
      }
    }
  }

  /** `playerOrder.filter(playerId => room.players[playerId])`: the proposed
      ids that are current members, in proposal order, duplicates kept. */
  function ProposedOrder(room: Room, proposal: seq<string>): (v: seq<ClientId>)
    ensures |v| <= |proposal|
    ensures forall id :: id in v <==> id in proposal && id in room.names
    ensures forall id :: multiset(v)[id] == if id in room.names then multiset(proposal)[id] else 0
  {
    FilterCount(id => id in room.names, proposal);
    Filter(id => id in room.names, proposal)
  }

  /** The filtered order follows the proposal's order: filtering a
      concatenation concatenates the filtered parts, and a single entry
      survives exactly when it names a member. */
  lemma ProposedOrderKeepsOrder(room: Room, a: seq<string>, b: seq<string>, id: string)
    ensures ProposedOrder(room, a + b) == ProposedOrder(room, a) + ProposedOrder(room, b)
    ensures ProposedOrder(room, [id]) == if id in room.names then [id] else []
  {
    FilterConcat(id => id in room.names, a, b);
    assert [id][1..] == [];
  }

  /** The acceptance test of handleSetPlayerOrder: as many surviving ids as
      the room has keys. */
  predicate Accepts(room: Room, proposal: seq<string>) {
    |ProposedOrder(room, proposal)| == |room.ids|
  }

  /** The player_order_update payload for an order of current members. */
  function OrderUpdateMsg(rid: RoomId, room: Room, v: seq<ClientId>): (m: Msg)
    requires forall id :: id in v ==> id in room.names
    ensures m.PlayerOrderUpdate? && m.orderRoom == rid && m.playerOrder == v && |m.orderNames| == |v|
    ensures forall i :: 0 <= i < |v| ==> m.orderNames[i] == room.names[v[i]]
  {
    PlayerOrderUpdate(rid, v, seq(|v|, i requires 0 <= i < |v| => room.names[v[i]]))
  }

  /** The guards of handleSetPlayerOrder all pass: a known client in a
      registered room sends an array whose member ids number the room's keys. */
  predicate OrderRequestAccepted(st: State, cid: ClientId, proposal: Option<seq<string>>) {
    && cid in st.clients
    && Truthy(st.clients[cid].roomId)
    && st.clients[cid].roomId.value in st.rooms
    && proposal.Some?
    && Accepts(st.rooms[st.clients[cid].roomId.value], proposal.value)
  }

  /** handleSetPlayerOrder: on acceptance the room stores the filtered
      proposal (only member ids, as many as the room has players, duplicates
      allowed); otherwise nothing changes and nothing is sent. */
  function SetOrder(st: State, cid: ClientId, proposal: Option<seq<string>>): (r: Step)
    requires Valid(st)
    ensures r.st.clients == st.clients && r.st.nextId == st.nextId
    ensures !OrderRequestAccepted(st, cid, proposal) ==> r == Step(st, [])
    ensures OrderRequestAccepted(st, cid, proposal) ==>
      var rid := st.clients[cid].roomId.value;
      var room := st.rooms[rid];
      var v := ProposedOrder(room, proposal.value);
      && r.st.rooms == st.rooms[rid := room.(playerOrder := Some(v))]
      && |v| == |room.names|
      && (forall id :: id in v ==> id in room.names)
  {
    if !OrderRequestAccepted(st, cid, proposal) then Step(st, [])
    else
      var rid := st.clients[cid].roomId.value;
      var room := st.rooms[rid];
      var v := ProposedOrder(room, proposal.value);
      SizeOfWellFormed(room);
      var st' := st.(rooms := st.rooms[rid := room.(playerOrder := Some(v))]);
      Step(st', RoomSend(st.clients, room, None, OrderUpdateMsg(rid, room, v)))
  }

  /** An accepted order reaches every open member once as player_order_update
      carrying the stored order and the members' names in that order. */
  lemma SetOrderDelivers(st: State, cid: ClientId, proposal: Option<seq<string>>, who: ClientId)
    requires Valid(st)
    requires OrderRequestAccepted(st, cid, proposal)
    ensures var rid := st.clients[cid].roomId.value;
      var room := st.rooms[rid];
      var v := ProposedOrder(room, proposal.value);
      Inbox(SetOrder(st, cid, proposal).out, who) ==
        if Receives(st.clients, room, None, who) then [OrderUpdateMsg(rid, room, v)] else []
  {
  }

  /** Storing an order keeps the state invariant. */
  lemma SetOrderPreservesValid(st: State, cid: ClientId, proposal: Option<seq<string>>)
    requires Valid(st)
    ensures Valid(SetOrder(st, cid, proposal).st)
  {
    var r := SetOrder(st, cid, proposal);
    if OrderRequestAccepted(st, cid, proposal) {
      var rid := st.clients[cid].roomId.value;
      var room := st.rooms[rid];
      SizeOfWellFormed(room);
      assert ValidRoom(r.st.rooms[rid]);
      assert RoomsValid(r.st);
      assert r.st.rooms.Keys == st.rooms.Keys;
      forall c | c in r.st.clients && r.st.clients[c].roomId.Some?
        ensures Seated(r.st, c)
      {
        assert Seated(st, c);
      }
    }
  }

  /** For a proposal without repeats, acceptance means exactly that every
      current member is mentioned (the proposal is then a permutation of the
      members, plus possibly unknown ids). */
  lemma AcceptsIffComplete(room: Room, proposal: seq<string>)
    requires WellFormed(room) && NoDups(proposal)
    ensures Accepts(room, proposal) <==> forall id :: id in room.names ==> id in proposal
  {
    var v := ProposedOrder(room, proposal);
    SizeOfWellFormed(room);
    NoDupsCard(v);
    assert Elems(v) <= room.names.Keys;
    if Accepts(room, proposal) {
      SubsetCardEq(Elems(v), room.names.Keys);
    }
    if forall id :: id in room.names ==> id in proposal {
      assert room.names.Keys <= Elems(v);
      assert Elems(v) == room.names.Keys;
    }
  }

  /** Repeats are not rejected: in a room of two players, naming one of them
      twice passes the check and the other player drops out of the order. */
  lemma DuplicateOrderAccepted(a: ClientId, b: ClientId)
    requires a != b
    ensures var room := Room([a, b], map[a := None, b := None], None);
      && Accepts(room, [a, a])
      && ProposedOrder(room, [a, a]) == [a, a]
      && b !in ProposedOrder(room, [a, a])
  {
    var room := Room([a, b], map[a := None, b := None], None);
    assert ProposedOrder(room, [a, a]) == [a, a] by {
      assert [a, a][1..] == [a];
      assert ProposedOrder(room, [a]) == [a] by {
        assert [a][1..] == [];
      }
    }
  }

  /** handleResetGame: a known client in a registered room makes every open
      member receive one game_reset naming the requester; the state is never
      changed. */
  function Reset(st: State, cid: ClientId): (r: Step)
    requires Valid(st)
    ensures r.st == st
    ensures !(cid in st.clients && Truthy(st.clients[cid].roomId) && st.clients[cid].roomId.value in st.rooms) ==>
      r.out == []
    ensures cid in st.clients && Truthy(st.clients[cid].roomId) && st.clients[cid].roomId.value in st.rooms ==>
      var rid := st.clients[cid].roomId.value;
      forall who :: Inbox(r.out, who) ==
        if Receives(st.clients, st.rooms[rid], None, who)
        then [GameReset(rid, DisplayName(st.clients[cid], cid))] else []
  {
    if cid !in st.clients || !Truthy(st.clients[cid].roomId) then Step(st, [])
    else
      var rid := st.clients[cid].roomId.value;
      if rid !in st.rooms then Step(st, [])
      else Step(st, RoomSend(st.clients, st.rooms[rid], None, GameReset(rid, DisplayName(st.clients[cid], cid))))
  }
}

=== FILE: server.dfy ===
/** The connection gateway of server.js: identity assignment on connect, the
    message-type dispatch of the `message` handler, cleanup on close/error,
    and the periodic sweep of connections that are no longer open. */
module Server {
  import opened Base
  import opened ClientIds
  import opened Registry
  import opened Messages
  import opened Broadcast
  import Rooms
  import Spinner
  import Led

  /** The fields of a parsed inbound message that the handlers read; `None`
      is a missing (or, for the order, non-array) field. */
  datatype Request = Request(kind: Option<string>, roomId: Option<string>, playerName: Option<string>,
                             targetClientId: Option<string>, targetId: Option<string>, action: Option<string>,
                             winnerDuration: Option<int>, playerOrder: Option<seq<string>>)

  /** What handling one inbound message produces: the new state, the sends,
      and the spinner run it started, if any. */
  datatype Handled = Handled(st: State, out: seq<Out>, spin: Option<Spinner.SpinRun>)

  /** Every registered client id is `client_<k>` for a counter value already
      handed out. */
  ghost predicate IdsIssued(st: State) {
    forall id :: id in st.clients ==> exists k: nat :: k < st.nextId && id == ClientName(k)
  }

  /** The invariant of every state the server reaches. */
  ghost predicate Reachable(st: State) {
    Valid(st) && IdsIssued(st)
  }

  /** The state at start-up: no clients, no rooms, the counter at 1. */
  const Init: State := State(map[], map[], 1)

  lemma InitReachable()
    ensures Reachable(Init)
  {
  }

  /** The `connection` handler: the next counter value names the client,
      which starts without name or room and with an open socket, and is told
      its identity. */
  function Connect(st: State): (r: Step)
    ensures r.st.nextId == st.nextId + 1
    ensures r.st.rooms == st.rooms
    ensures ClientName(st.nextId) in r.st.clients && r.st.clients[ClientName(st.nextId)] == Client(None, None, true)
    ensures forall id :: id != ClientName(st.nextId) ==> (id in r.st.clients <==> id in st.clients)
    ensures forall id :: id != ClientName(st.nextId) && id in st.clients ==> r.st.clients[id] == st.clients[id]
    ensures r.out == [Out(ClientName(st.nextId), Connected(ClientName(st.nextId)))]
  {
    var id := ClientName(st.nextId);
    Step(State(st.clients[id := Client(None, None, true)], st.rooms, st.nextId + 1), [Out(id, Connected(id))])
  }

  /** A connecting client never takes over an identity in use: the new
      identity is absent beforehand, and the invariant is kept. */
  lemma ConnectFresh(st: State)
    requires Reachable(st)
    ensures ClientName(st.nextId) !in st.clients
    ensures Reachable(Connect(st).st)
  {
    var id := ClientName(st.nextId);
    if id in st.clients {
      var k: nat :| k < st.nextId && id == ClientName(k);
      ClientNameInjective(k, st.nextId);
    }
    var st' := Connect(st).st;
    forall c | c in st'.clients
      ensures exists k: nat :: k < st'.nextId && c == ClientName(k)
    {
      if c == id {
        assert st.nextId < st'.nextId && c == ClientName(st.nextId);
      } else {
        var k: nat :| k < st.nextId && c == ClientName(k);
        assert k < st'.nextId;
      }
    }
    forall c | c in st'.clients && st'.clients[c].roomId.Some?
      ensures Seated(st', c)
    {
      assert Seated(st, c);
    }
  }

  /** The message-type switch. Both "control_led" and "led_control" reach
      the LED relay; "ping" is answered with pong; any other type is ignored.
      `spins` and `pick` are the two `Math.random()` draws a spin would use. */
  function Dispatch(st: State, cid: ClientId, req: Request, spins: Spinner.Draw, pick: Spinner.Draw): (h: Handled)
    requires Valid(st)
    ensures h.st.nextId == st.nextId
    ensures h.st.clients.Keys <= st.clients.Keys
    ensures h.spin.Some? ==> req.kind == Some("start_spinner")
    ensures req.kind == Some("ping") ==> h == Handled(st, [Out(cid, Pong)], None)
    ensures !(req.kind in {Some("join_room"), Some("player_info"), Some("control_led"), Some("led_control"),
                           Some("leave_room"), Some("reset_game"), Some("start_spinner"),
                           Some("set_player_order"), Some("ping")})
            ==> h == Handled(st, [], None)
  {
    match req.kind
    case Some("join_room") =>
      var r := Rooms.Join(st, cid, req.roomId, req.playerName); Handled(r.st, r.out, None)
    case Some("player_info") =>
      var r := Rooms.PlayerInfo(st, cid, req.playerName); Handled(r.st, r.out, None)
    case Some("control_led") =>
      var r := Led.LedControl(st, cid, req.targetClientId, req.targetId, req.action); Handled(r.st, r.out, None)
    case Some("led_control") =>
      var r := Led.LedControl(st, cid, req.targetClientId, req.targetId, req.action); Handled(r.st, r.out, None)
    case Some("leave_room") =>
      var r := Rooms.Leave(st, cid); Handled(r.st, r.out, None)
    case Some("reset_game") =>
      var r := Rooms.Reset(st, cid); Handled(r.st, r.out, None)
    case Some("start_spinner") =>
      var l := Spinner.StartSpinner(st, cid, req.winnerDuration, spins, pick); Handled(st, l.out, l.run)
    case Some("set_player_order") =>
      var r := Rooms.SetOrder(st, cid, req.playerOrder); Handled(r.st, r.out, None)
    case Some("ping") =>
      Handled(st, [Out(cid, Pong)], None)
    case _ =>
      Handled(st, [], None)
  }

  /** The two LED message types are handled identically. */
  lemma LedAliasesAgree(st: State, cid: ClientId, req: Request, spins: Spinner.Draw, pick: Spinner.Draw)
    requires Valid(st)
    ensures Dispatch(st, cid, req.(kind := Some("control_led")), spins, pick)
         == Dispatch(st, cid, req.(kind := Some("led_control")), spins, pick)
  {
  }

  /** Handling any message keeps the invariant. */
  lemma DispatchReachable(st: State, cid: ClientId, req: Request, spins: Spinner.Draw, pick: Spinner.Draw)
    requires Reachable(st)
    ensures Reachable(Dispatch(st, cid, req, spins, pick).st)
  {
    var h := Dispatch(st, cid, req, spins, pick);
    match req.kind {
      case Some("join_room") => Rooms.JoinPreservesValid(st, cid, req.roomId, req.playerName);
      case Some("player_info") => Rooms.PlayerInfoPreservesValid(st, cid, req.playerName);
      case Some("leave_room") => Rooms.LeavePreservesValid(st, cid);
      case Some("set_player_order") => Rooms.SetOrderPreservesValid(st, cid, req.playerOrder);
      case _ =>
    }
    IssuedKept(st, h.st);
  }

  /** Helper: dropping clients keeps the identities issued. */
  lemma IssuedKept(st: State, st': State)
    requires IdsIssued(st) && st'.clients.Keys <= st.clients.Keys && st'.nextId == st.nextId
    ensures IdsIssued(st')
  {
    forall id | id in st'.clients
      ensures exists k: nat :: k < st'.nextId && id == ClientName(k)
    {
      assert id in st.clients;
    }
  }

  /** The `close` and `error` handlers both run handleClientDisconnect. */
  function Close(st: State, cid: ClientId): (r: Step)
    requires Reachable(st)
    ensures Reachable(r.st)
    ensures r.st.clients == st.clients - {cid}
  {
    Rooms.DisconnectPreservesValid(st, cid);
    var r := Rooms.Disconnect(st, cid);
    IssuedKept(st, r.st);
    r
  }

  /** Disconnecting twice is the same as once; the second call sends nothing. */
  lemma CloseIdempotent(st: State, cid: ClientId)
    requires Reachable(st)
    ensures var once := Close(st, cid);
      Close(once.st, cid) == Step(once.st, [])
  {
  }

  /** The transport closing a socket (`readyState` leaving OPEN) before the
      `close` handler has run: only the client's `open` flag changes. */
  function SocketClosed(st: State, cid: ClientId): (st': State)
    requires Reachable(st)
    ensures Reachable(st')
    ensures st'.clients.Keys == st.clients.Keys && st'.rooms == st.rooms && st'.nextId == st.nextId
    ensures cid in st.clients ==> st'.clients[cid] == st.clients[cid].(open := false)
    ensures forall id :: id in st.clients && id != cid ==> st'.clients[id] == st.clients[id]
    ensures !IsOpen(st'.clients, cid)
  {
    if cid !in st.clients then st
    else
      var st' := st.(clients := st.clients[cid := st.clients[cid].(open := false)]);
      assert forall c :: c in st'.clients && st'.clients[c].roomId.Some? ==> Seated(st, c);
      IssuedKept(st, st');
      st'
  }

  /** A sweep that visits a client whose socket was closed removes it, and
      keeps every visited client whose socket is still open. */
  lemma SweepRemovesClosed(st: State, cid: ClientId, ids: seq<ClientId>)
    requires Reachable(st) && cid in ids
    ensures var after := Sweep(SocketClosed(st, cid), ids).st;
      && cid !in after.clients
      && forall id :: id in ids && IsOpen(SocketClosed(st, cid).clients, id) ==> id in after.clients
  {
  }

  /** The clients a sweep over `ids` keeps: those it does not visit and
      those whose socket is open. */
  ghost function Survivors(clients: map<ClientId, Client>, ids: seq<ClientId>): map<ClientId, Client> {
    map id | id in clients && (id !in ids || clients[id].open) :: clients[id]
  }

  /** The stale-connection sweep of the 30-second interval: every visited
      client whose socket is not open is disconnected, in visiting order. */
  function Sweep(st: State, ids: seq<ClientId>): (r: Step)
    requires Reachable(st)
    ensures Reachable(r.st)
    ensures r.st.clients == Survivors(st.clients, ids)
    decreases |ids|
  {
    if |ids| == 0 then Step(st, [])
    else
      var id := ids[0];
      var first := if id in st.clients && !st.clients[id].open then Close(st, id) else Step(st, []);
      var rest := Sweep(first.st, ids[1..]);
      assert rest.st.clients == Survivors(st.clients, ids) by {
        SurvivorsStep(st.clients, first.st.clients, ids);
      }
      Step(rest.st, first.out + rest.out)
  }

  /** Helper: one visit of the sweep, then the rest of it. */
  lemma SurvivorsStep(clients: map<ClientId, Client>, after: map<ClientId, Client>, ids: seq<ClientId>)
    requires |ids| > 0
    requires after == if ids[0] in clients && !clients[ids[0]].open then clients - {ids[0]} else clients
    ensures Survivors(after, ids[1..]) == Survivors(clients, ids)
  {
    var l := Survivors(after, ids[1..]);
    var r := Survivors(clients, ids);
    assert forall id :: id in l <==> id in r by {
      forall id ensures id in l <==> id in r {
        if id == ids[0] {
        } else {
          assert id in ids <==> id in ids[1..];
        }
      }
    }
  }
}

=== FILE: spinner.dfy ===
/** The spinner of server.js: handleStartSpinner picks the number of steps
    from two random draws, and startSpinnerAnimation/spinStep is a chain of
    self-rescheduling callbacks that highlights one player per step and then
    announces the winner. Time is not modelled: the chain is a sequence of
    ticks. */
module Spinner {
  import opened Base
  import opened Arith
  import opened Registry
  import opened Messages
  import opened Broadcast

  /** A `Math.random()` result as the exact fraction num/den. */
  datatype Fraction = Fraction(num: nat, den: nat)

  /** A draw in [0, 1). */
  type Draw = f: Fraction | f.num < f.den witness Fraction(0, 1)

  /** `Math.floor((3 + r * 2) * n)` for the draw r: three to five rotations,
      that is 3n plus floor(r * 2n). */
  function TotalSteps(n: nat, spins: Draw): (t: nat)
    ensures 3 * n <= t
    ensures n > 0 ==> t <= 5 * n - 1
  {
    assert n > 0 ==> (spins.num * (2 * n)) / spins.den < 2 * n by {
      if n > 0 { ScaledFloorBelow(spins.num, spins.den, 2 * n); }
    }
    3 * n + (spins.num * (2 * n)) / spins.den
  }

  /** `Math.floor(r * n)` for the draw r: an index into the order. */
  function SelectedIndex(n: nat, pick: Draw): (i: nat)
    ensures n > 0 ==> i < n
  {
    assert n > 0 ==> (pick.num * n) / pick.den < n by {
      if n > 0 { ScaledFloorBelow(pick.num, pick.den, n); }
    }
    (pick.num * n) / pick.den
  }

  /** Every step count of the range can come out of the rotation draw:
      k/(2n) gives 3n + k. */
  lemma TotalStepsReachable(n: nat, k: nat)
    requires n > 0 && k < 2 * n
    ensures TotalSteps(n, Fraction(k, 2 * n)) == 3 * n + k
  {
    ModUnique(k * (2 * n), k, 0, 2 * n);
  }

  /** `(message.winnerDuration || 5) * 1000`: the requested seconds, with a
      missing or zero request meaning five, in milliseconds. The result is a
      whole, non-zero number of seconds, negative only for a negative request. */
  function WinnerDuration(requested: Option<int>): (ms: int)
    ensures ms != 0 && ms % 1000 == 0
    ensures ms > 0 <==> requested.None? || requested.value >= 0
  {
    (if requested.None? || requested.value == 0 then 5 else requested.value) * 1000
  }

  /** The variables captured by spinStep's closure: room id, order, final
      step, winner duration, and the running `currentStep` and
      `currentPlayerIndex`. */
  datatype SpinRun = SpinRun(room: RoomId, order: seq<ClientId>, finalStep: nat, duration: int,
                             step: nat, index: nat)

  /** The index always points into a non-empty order. */
  predicate ValidRun(run: SpinRun) {
    0 < |run.order| && run.index < |run.order|
  }

  /** Ticks still to highlight. */
  function Remaining(run: SpinRun): nat {
    if run.step < run.finalStep then run.finalStep - run.step else 0
  }

  /** `currentStep++` and `currentPlayerIndex = (currentPlayerIndex + 1) % n`. */
  function Advance(run: SpinRun): (next: SpinRun)
    requires ValidRun(run)
    ensures ValidRun(next) && next.order == run.order && next.finalStep == run.finalStep
    ensures run.step < run.finalStep ==> Remaining(next) == Remaining(run) - 1
    ensures next.step == run.step + 1 && next.index == (run.index + 1) % |run.order|
    ensures next.room == run.room && next.duration == run.duration
  {
    run.(step := run.step + 1, index := (run.index + 1) % |run.order|)
  }

  /** The player the run will stop on: the index after all remaining steps. */
  function WinnerOf(run: SpinRun): (w: ClientId)
    requires ValidRun(run)
    ensures w in run.order
  {
    run.order[(run.index + Remaining(run)) % |run.order|]
  }

  /** With no steps left the run stops on the current index. */
  lemma FinalWinner(run: SpinRun)
    requires ValidRun(run) && run.step >= run.finalStep
    ensures WinnerOf(run) == run.order[run.index]
  {
    ModUnique(run.index, 0, run.index, |run.order|);
  }

  /** One tick does not change the player the run stops on. */
  lemma NextWinner(run: SpinRun)
    requires ValidRun(run) && run.step < run.finalStep
    ensures WinnerOf(Advance(run)) == WinnerOf(run)
  {
    var n := |run.order|;
    var next := Advance(run);
    var k := Remaining(run) - 1;
    assert next.index == (run.index + 1) % n && Remaining(next) == k;
    ModAddLeft(run.index + 1, k, n);
    assert run.index + 1 + k == run.index + Remaining(run);
  }

  /** The highlight a tick sends. */
  function HighlightOf(run: SpinRun): Msg
    requires ValidRun(run)
  {
    SpinnerHighlight(run.room, run.order[run.index], run.step, run.finalStep)
  }

  /** The private directive to the winner's device. */
  function WinnerLed(duration: int): Msg {
    LedCommand(Some("winner_highlight"), "spinner", "Spinner", Some(duration))
  }

  /** The spinner_result naming `w`, as the room shows it. */
  function ResultOf(run: SpinRun, room: Room, w: ClientId): Msg
    requires w in room.names
  {
    SpinnerResult(run.room, w, room.names[w], run.duration)
  }

  /** Outcome of one spinStep callback. `Fault` is the TypeError raised by
      `winner.name` when the winner has no player record any more. */
  datatype Tick = Continue(next: SpinRun, out: seq<Out>) | Done(out: seq<Out>) | Fault

  /** One spinStep callback, reading the captured room object as it is now:
      before the final step, a highlight to every open member and the next
      closure state; at the final step, the result to every open member and
      the private directive to the winner, or a fault if the winner has no
      player record. */
  function SpinTick(run: SpinRun, room: Room, clients: map<ClientId, Client>): (t: Tick)
    requires ValidRun(run) && NoDups(room.ids)
    ensures t.Continue? <==> run.step < run.finalStep
    ensures t.Fault? <==> run.step >= run.finalStep && run.order[run.index] !in room.names
    ensures t.Continue? ==> t.next == Advance(run)
  {
    if run.step >= run.finalStep then
      var w := run.order[run.index];
      if w !in room.names then Fault
      else
        var result := RoomSend(clients, room, None, ResultOf(run, room, w));
        var led := if IsOpen(clients, w) then [Out(w, WinnerLed(run.duration))] else [];
        Done(result + led)
    else
      Continue(Advance(run), RoomSend(clients, room, None, HighlightOf(run)))
  }

  /** What a tick before the final step delivers to one client: the
      highlight of the current index if it is an open member. */
  lemma HighlightTickDelivers(run: SpinRun, room: Room, clients: map<ClientId, Client>, who: ClientId)
    requires ValidRun(run) && NoDups(room.ids) && run.step < run.finalStep
    ensures Inbox(SpinTick(run, room, clients).out, who) ==
      if Receives(clients, room, None, who) then [HighlightOf(run)] else []
  {
    assert SpinTick(run, room, clients).out == RoomSend(clients, room, None, HighlightOf(run));
  }

  /** What the final tick delivers to one client when the winner has a
      player record: the result if it is an open member, then the
      winner_highlight directive if it is the winner with an open socket. */
  lemma FinalTickDelivers(run: SpinRun, room: Room, clients: map<ClientId, Client>, who: ClientId)
    requires ValidRun(run) && NoDups(room.ids) && run.step >= run.finalStep
    requires run.order[run.index] in room.names
    ensures var w := run.order[run.index];
      Inbox(SpinTick(run, room, clients).out, who) ==
        (if Receives(clients, room, None, who) then [ResultOf(run, room, w)] else [])
        + (if who == w && IsOpen(clients, who) then [WinnerLed(run.duration)] else [])
  {
    var w := run.order[run.index];
    var result := RoomSend(clients, room, None, ResultOf(run, room, w));
    var led := if IsOpen(clients, w) then [Out(w, WinnerLed(run.duration))] else [];
    assert SpinTick(run, room, clients).out == result + led;
    assert Inbox(led, who) == if who == w && IsOpen(clients, who) then [WinnerLed(run.duration)] else [] by {
      if IsOpen(clients, w) {
        assert led[1..] == [];
      }
    }
    InboxConcat(result, led, who);
  }

  /** What the whole chain sends, and whether it ended in an uncaught
      exception (which, raised in a timer callback, stops the process). */
  datatype Trace = Trace(out: seq<Out>, crashed: bool)

  /** The tick chain against a room whose contents stay as given. It crashes
      exactly when the player it stops on has no record in the room. */
  function SpinTrace(run: SpinRun, room: Room, clients: map<ClientId, Client>): (t: Trace)
    requires ValidRun(run) && NoDups(room.ids)
    ensures t.crashed <==> WinnerOf(run) !in room.names
    decreases Remaining(run)
  {
    var t := SpinTick(run, room, clients);
    if !t.Continue? then
      FinalWinner(run);
      if t.Fault? then Trace([], true) else Trace(t.out, false)
    else
      NextWinner(run);
      var rest := SpinTrace(t.next, room, clients);
      Trace(t.out + rest.out, rest.crashed)
  }

  /** The highlights still to come, one per remaining step. */
  function Highlights(run: SpinRun): seq<Msg>
    requires ValidRun(run)
    decreases Remaining(run)
  {
    if run.step >= run.finalStep then [] else [HighlightOf(run)] + Highlights(Advance(run))
  }

  /** The k-th remaining highlight is for step `step + k` and names
      `order[(index + k) mod n]`. */
  lemma {:induction false} HighlightsAt(run: SpinRun, k: nat)
    requires ValidRun(run)
    ensures |Highlights(run)| == Remaining(run)
    ensures k < Remaining(run) ==>
      Highlights(run)[k] == SpinnerHighlight(run.room, run.order[(run.index + k) % |run.order|], run.step + k, run.finalStep)
    decreases Remaining(run)
  {
    if run.step < run.finalStep {
      var n := |run.order|;
      var next := Advance(run);
      HighlightsAt(next, if k == 0 then 0 else k - 1);
      var hs := Highlights(next);
      assert Highlights(run) == [HighlightOf(run)] + hs;
      if k == 0 {
        ModUnique(run.index, 0, run.index, n);
      } else if k < Remaining(run) {
        ModAddLeft(run.index + 1, k - 1, n);
        var j := k - 1;
        assert hs[j] == SpinnerHighlight(run.room, run.order[(next.index + j) % n], next.step + j, run.finalStep);
        assert (next.index + j) % n == (run.index + k) % n;
        assert next.step + j == run.step + k;
      }
    }
  }

  /** What one client receives after the highlights: nothing if the chain
      crashes; otherwise spinner_result if it is an open member, then the
      winner_highlight directive if it is the winner with an open socket. */
  function Completion(run: SpinRun, room: Room, clients: map<ClientId, Client>, who: ClientId): seq<Msg>
    requires ValidRun(run)
  {
    var w := WinnerOf(run);
    if w !in room.names then []
    else
      (if Receives(clients, room, None, who) then [ResultOf(run, room, w)] else [])
      + (if who == w && IsOpen(clients, who) then [WinnerLed(run.duration)] else [])
  }

  /** Helper: prepending this tick's share to the rest of the chain's share. */
  lemma PrependStep(recv: bool, h: Msg, hs: seq<Msg>, c: seq<Msg>, now: seq<Msg>, later: seq<Msg>)
    requires now == (if recv then [h] else [])
    requires later == (if recv then hs else []) + c
    ensures now + later == (if recv then [h] + hs else []) + c
  {
  }

  /** Helper: the last tick of the chain, as one client sees it. */
  lemma EndInbox(run: SpinRun, room: Room, clients: map<ClientId, Client>, who: ClientId)
    requires ValidRun(run) && NoDups(room.ids) && run.step >= run.finalStep
    ensures Highlights(run) == []
    ensures Inbox(SpinTrace(run, room, clients).out, who) == Completion(run, room, clients, who)
  {
    FinalWinner(run);
    var t := SpinTick(run, room, clients);
    if t.Fault? {
      assert SpinTrace(run, room, clients).out == [];
    } else {
      FinalTickDelivers(run, room, clients, who);
      assert SpinTrace(run, room, clients).out == t.out;
    }
  }

  /** Helper: a highlight tick followed by the rest of the chain. */
  lemma StepInbox(run: SpinRun, room: Room, clients: map<ClientId, Client>, who: ClientId)
    requires ValidRun(run) && NoDups(room.ids) && run.step < run.finalStep
    ensures Inbox(SpinTrace(run, room, clients).out, who) ==
      (if Receives(clients, room, None, who) then [HighlightOf(run)] else [])
      + Inbox(SpinTrace(Advance(run), room, clients).out, who)
  {
    HighlightTickDelivers(run, room, clients, who);
    var t := SpinTick(run, room, clients);
    var rest := SpinTrace(Advance(run), room, clients);
    assert SpinTrace(run, room, clients).out == t.out + rest.out;
    InboxConcat(t.out, rest.out, who);
  }

  /** Helper: a tick does not change what the completion delivers. */
  lemma NextCompletion(run: SpinRun, room: Room, clients: map<ClientId, Client>, who: ClientId)
    requires ValidRun(run) && run.step < run.finalStep
    ensures Completion(Advance(run), room, clients, who) == Completion(run, room, clients, who)
  {
    NextWinner(run);
  }

  /** What one client receives from the whole chain: every remaining
      highlight in step order if it is an open member, then the completion. */
  lemma {:induction false} SpinTraceInbox(run: SpinRun, room: Room, clients: map<ClientId, Client>, who: ClientId)
    requires ValidRun(run) && NoDups(room.ids)
    ensures Inbox(SpinTrace(run, room, clients).out, who) ==
      (if Receives(clients, room, None, who) then Highlights(run) else []) + Completion(run, room, clients, who)
    decreases Remaining(run)
  {
    if run.step >= run.finalStep {
      EndInbox(run, room, clients, who);
    } else {
      var next := Advance(run);
      StepInbox(run, room, clients, who);
      NextCompletion(run, room, clients, who);
      assert Highlights(run) == [HighlightOf(run)] + Highlights(next);
      SpinTraceInbox(next, room, clients, who);
      PrependStep(Receives(clients, room, None, who), HighlightOf(run), Highlights(next),
                  Completion(run, room, clients, who),
                  if Receives(clients, room, None, who) then [HighlightOf(run)] else [],
                  Inbox(SpinTrace(next, room, clients).out, who));
    }
  }

  /** What handleStartSpinner produces: its sends and, when the spin goes
      ahead, the run whose first tick it performs synchronously. */
  datatype Launch = Launch(out: seq<Out>, run: Option<SpinRun>)

  /** The guards of handleStartSpinner before the player count. */
  predicate InRoom(st: State, cid: ClientId) {
    cid in st.clients && Truthy(st.clients[cid].roomId) && st.clients[cid].roomId.value in st.rooms
  }

  /** The order a spin uses: the stored player order, else the key order. */
  function SpinOrder(room: Room): seq<ClientId> {
    room.playerOrder.GetOr(room.ids)
  }

  /** handleStartSpinner with the two `Math.random()` draws as parameters. */
  function StartSpinner(st: State, cid: ClientId, requested: Option<int>, spins: Draw, pick: Draw): (l: Launch)
    requires Valid(st)
    ensures !InRoom(st, cid) ==> l == Launch([], None)
    ensures InRoom(st, cid) && |st.rooms[st.clients[cid].roomId.value].ids| < 2 ==>
      l == Launch([Out(cid, SpinnerError)], None)
    ensures l.run.Some? ==>
      var rid := st.clients[cid].roomId.value;
      var room := st.rooms[rid];
      var order := SpinOrder(room);
      var n := |order|;
      var run := l.run.value;
      && InRoom(st, cid) && |room.ids| >= 2
      && ValidRun(run) && run.room == rid && run.order == order
      && run.step == 0 && run.index == 0
      && 3 * n <= run.finalStep < 6 * n
      && run.finalStep == TotalSteps(n, spins) + SelectedIndex(n, pick)
      && order[SelectedIndex(n, pick)] in room.names
      && run.duration == WinnerDuration(requested)
      && forall who :: Inbox(l.out, who) ==
           if Receives(st.clients, room, None, who)
           then [SpinnerStart(rid, order, run.finalStep, DisplayName(st.clients[cid], cid), run.duration)] else []
    ensures InRoom(st, cid) && |st.rooms[st.clients[cid].roomId.value].ids| >= 2 ==>
      var room := st.rooms[st.clients[cid].roomId.value];
      var n := |SpinOrder(room)|;
      (l.run.Some? <==> n > 0 && SpinOrder(room)[SelectedIndex(n, pick)] in room.names)
      && (l.run.None? ==> l.out == [])
  {
    if !InRoom(st, cid) then Launch([], None)
    else
      var rid := st.clients[cid].roomId.value;
      var room := st.rooms[rid];
      if |room.ids| < 2 then Launch([Out(cid, SpinnerError)], None)
      else
        var order := SpinOrder(room);
        var n := |order|;
        var finalStep := TotalSteps(n, spins) + SelectedIndex(n, pick);
        var duration := WinnerDuration(requested);
        if n == 0 || order[SelectedIndex(n, pick)] !in room.names then
          // the log line dereferences room.players[playerOrder[selectedIndex]];
          // the TypeError is caught by the message handler with nothing sent
          Launch([], None)
        else
          var start := SpinnerStart(rid, order, finalStep, DisplayName(st.clients[cid], cid), duration);
          Launch(RoomSend(st.clients, room, None, start), Some(SpinRun(rid, order, finalStep, duration, 0, 0)))
  }

  /** The player named at selectedIndex (the one the start log announces) is
      not always the winner: two players, r = 1/4 for the rotations, r = 0
      for the index gives seven steps and the second player. */
  lemma LoggedPlayerMayDiffer()
    ensures var n := 2;
      var finalStep := TotalSteps(n, Fraction(1, 4)) + SelectedIndex(n, Fraction(0, 1));
      finalStep == 7 && finalStep % n != SelectedIndex(n, Fraction(0, 1))
  {
    assert TotalSteps(2, Fraction(1, 4)) == 6 + 4 / 4;
  }

  /** A run whose room was deleted meanwhile: the captured room object has
      no players left, so no tick reaches anyone and the final tick raises
      the uncaught TypeError. */
  lemma VacatedRoomTrace(run: SpinRun, clients: map<ClientId, Client>, who: ClientId)
    requires ValidRun(run)
    ensures var t := SpinTrace(run, Room([], map[], None), clients);
      t.crashed && Inbox(t.out, who) == []
  {
    SpinTraceInbox(run, Room([], map[], None), clients, who);
  }

  /** The run a request produces when the room has two players and its spin
      order lists only members. */
  lemma StartsRun(st: State, cid: ClientId, requested: Option<int>, spins: Draw, pick: Draw)
    requires Valid(st) && InRoom(st, cid)
    requires var room := st.rooms[st.clients[cid].roomId.value];
      |room.ids| >= 2 && forall id :: id in SpinOrder(room) ==> id in room.names
    ensures StartSpinner(st, cid, requested, spins, pick).run.Some?
  {
    var room := st.rooms[st.clients[cid].roomId.value];
    var order := SpinOrder(room);
    var n := |order|;
    assert n > 0 by {
      if room.playerOrder.None? {
        assert order == room.ids;
      } else {
        assert ValidRoom(room);
      }
    }
    assert order[SelectedIndex(n, pick)] in order;
  }

  /** A run started by the handler highlights steps 0 .. finalStep-1 and
      names order[k mod n] at step k. */
  lemma StartedHighlights(run: SpinRun)
    requires ValidRun(run) && run.step == 0 && run.index == 0
    ensures |Highlights(run)| == run.finalStep
    ensures forall k :: 0 <= k < run.finalStep ==>
      Highlights(run)[k] == SpinnerHighlight(run.room, run.order[k % |run.order|], k, run.finalStep)
  {
    HighlightsAt(run, 0);
    forall k | 0 <= k < run.finalStep
      ensures Highlights(run)[k] == SpinnerHighlight(run.room, run.order[k % |run.order|], k, run.finalStep)
    {
      HighlightsAt(run, k);
    }
  }

  /** Helper: regrouping four concatenated sequences. */
  lemma Regroup(a: seq<Msg>, b: seq<Msg>, c: seq<Msg>, d: seq<Msg>)
    ensures a + (b + (c + d)) == (a + b + c) + d
  {
  }

  /** A started run, from its start announcement to its end, as one client
      sees it when the room does not change. */
  lemma StartedRunInbox(run: SpinRun, room: Room, clients: map<ClientId, Client>,
                                           start: Msg, announce: seq<Out>, who: ClientId)
    requires ValidRun(run) && NoDups(room.ids) && run.step == 0 && run.index == 0
    requires run.order[run.finalStep % |run.order|] in room.names
    requires Inbox(announce, who) == if Receives(clients, room, None, who) then [start] else []
    ensures var w := run.order[run.finalStep % |run.order|];
      var t := SpinTrace(run, room, clients);
      && !t.crashed
      && Inbox(announce + t.out, who) ==
           (if Receives(clients, room, None, who)
            then [start] + Highlights(run) + [ResultOf(run, room, w)]
            else [])
           + (if who == w && IsOpen(clients, who) then [WinnerLed(run.duration)] else [])
  {
    var t := SpinTrace(run, room, clients);
    var w := run.order[run.finalStep % |run.order|];
    assert WinnerOf(run) == w;
    var led := if who == w && IsOpen(clients, who) then [WinnerLed(run.duration)] else [];
    var c := Completion(run, room, clients, who);
    assert c == (if Receives(clients, room, None, who) then [ResultOf(run, room, w)] else []) + led;
    SpinTraceInbox(run, room, clients, who);
    InboxConcat(announce, t.out, who);
    var hs := Highlights(run);
    var res := ResultOf(run, room, w);
    if Receives(clients, room, None, who) {
      assert Inbox(announce + t.out, who) == [start] + (hs + ([res] + led));
      Regroup([start], hs, [res], led);
    } else {
      assert Inbox(announce + t.out, who) == [] + ([] + ([] + led));
    }
  }

  /** End to end on a state that does not change during the spin, for a
      requester in a room of at least two players whose spin order lists
      only members: every open member receives spinner_start, then the
      highlights for steps 0 .. finalStep-1, then one spinner_result naming
      order[finalStep mod n]; that winner alone also gets the
      winner_highlight directive when its socket is open. */
  lemma SpinnerRoundTrip(st: State, cid: ClientId, requested: Option<int>, spins: Draw, pick: Draw, who: ClientId)
    requires Valid(st) && InRoom(st, cid)
    requires var room := st.rooms[st.clients[cid].roomId.value];
      |room.ids| >= 2 && forall id :: id in SpinOrder(room) ==> id in room.names
    ensures var l := StartSpinner(st, cid, requested, spins, pick);
      var rid := st.clients[cid].roomId.value;
      var room := st.rooms[rid];
      var order := SpinOrder(room);
      l.run.Some? &&
      var run := l.run.value;
      var w := order[run.finalStep % |order|];
      var t := SpinTrace(run, room, st.clients);
      && !t.crashed
      && Inbox(l.out + t.out, who) ==
           (if Receives(st.clients, room, None, who)
            then [SpinnerStart(rid, order, run.finalStep, DisplayName(st.clients[cid], cid), run.duration)]
                 + Highlights(run) + [SpinnerResult(rid, w, room.names[w], run.duration)]
            else [])
           + (if who == w && IsOpen(st.clients, who) then [WinnerLed(run.duration)] else [])
  {
    StartsRun(st, cid, requested, spins, pick);
    var l := StartSpinner(st, cid, requested, spins, pick);
    var rid := st.clients[cid].roomId.value;
    var room := st.rooms[rid];
    var run := l.run.value;
    var start := SpinnerStart(rid, run.order, run.finalStep, DisplayName(st.clients[cid], cid), run.duration);
    assert run.order[run.finalStep % |run.order|] in room.names;
    StartedRunInbox(run, room, st.clients, start, l.out, who);
  }
}
